=== FILE: README.md ===
# Elsewherr tag reconciliation, in Dafny

Elsewherr keeps "streaming provider" tags on the movies of a Radarr catalog and
the series of a Sonarr catalog. For each item it asks TMDB which subscription
(flatrate) providers stream the title in a region. It keeps every tag whose
label does not carry the configured prefix, adds the tag of each configured
provider that streams the title, and writes the new tag set back when it
differs. It makes up to three attempts per item, retrying on network errors. It also
records one change-log entry per item and per-service counters. Two companion
scripts copy the catalog's prefixed tags into the Jellyfin NFO file next to
each movie or series.

The model is pure Dafny. Each module follows one part of the program:

- `Wrappers`: `Option`.
- `Strings`:
  - prefix test and ASCII lower-casing;
  - Python's code-point ordering of strings;
  - `sorted` of a set of strings.
- `TagCodec`: the provider-name to tag-label codec.
- `Reconcile`: the new tag set of one item and the added/removed labels.
- `Worker`: one item's attempt loop with its retry and error paths. The network's answers are an input, one per attempt.
- `Aggregator`: `_log_change` and the error log, with the per-service counters.
- `Service`: `_process_service`:
  - lookup tables from the tag list;
  - one outcome per item;
  - the fold over the completions.
- `Nfo`: what the two NFO scripts share:
  - the root's children;
  - catalog label sets;
  - the path strip;
  - the loop that counts rewritten files.
- `RadarrNfo` and `SonarrNfo`: the two NFO sync rules.

## Model

| member | source | states |
|---|---|---|
| Strings.Lower | elsewherr.py:146 | lower-casing keeps the length and maps each character through the ASCII case map, position by position |
| Strings.LowerFixedIff | elsewherr.py:146 | a string is unchanged by lower-casing exactly when it has no upper-case letter |
| Strings.SortDedup | radarr_tags_to_jellyfin_nfo.py:107 | the result is strictly increasing in code-point order and holds exactly the input's elements |
| Strings.SortedUnique | radarr_tags_to_jellyfin_nfo.py:107 | two strictly increasing lists with the same elements are equal, so `sorted(list(s))` depends only on the set `s` |
| TagCodec.Sanitize | elsewherr.py:145 | the result is no longer than the name and consists of ASCII letters and digits only |
| TagCodec.SanitizeCounts | elsewherr.py:145 | every ASCII letter and digit of the name is kept as often as it occurs, and nothing else is |
| TagCodec.SanitizeChar | elsewherr.py:145 | a single character is kept exactly when it is an ASCII letter or digit |
| TagCodec.SanitizeAppend | elsewherr.py:145 | sanitizing a concatenation concatenates the sanitized parts, so the kept characters keep their order; with SanitizeChar this fixes the result for every name |
| TagCodec.Label | elsewherr.py:141-146 | the label is the lower-cased prefix followed by the lower-cased sanitized name; past the prefix, every character is a lower-case letter or a digit |
| TagCodec.SanitizeFixedIff | elsewherr.py:145 | a name is unchanged by sanitizing exactly when it is all ASCII letters and digits |
| TagCodec.SanitizeIdempotent | elsewherr.py:145 | sanitizing twice equals sanitizing once |
| TagCodec.LabelStartsWithPrefixIff | elsewherr.py:146 | a generated label starts with the configured prefix exactly when the prefix has no upper-case letter |
| TagCodec.LabelCollisionIff | elsewherr.py:141-146 | two provider names get the same label exactly when their sanitized, lower-cased forms agree |
| Reconcile.ProviderTag | elsewherr.py:292-298 | an entry adds a tag exactly when it is named, the name is configured, and its label resolves to a non-zero id; the tag is that id |
| Reconcile.ProviderIds | elsewherr.py:291-298 | the ids the provider loop adds; characterised by ProviderIdsMembers |
| Reconcile.ProviderIdsMembers | elsewherr.py:291-298 | an id is added exactly when some flatrate entry contributes it, and id 0 never is |
| Reconcile.Foreign | elsewherr.py:284-289 | the kept tags are exactly the current tags whose label, read with an empty default, lacks the prefix |
| Reconcile.Desired | elsewherr.py:284-298 | the new tag set of an item; characterised by DesiredMembers, and a fixed point by DesiredIdempotent |
| Reconcile.DesiredMembers | elsewherr.py:284-298 | the new set holds exactly the unmanaged current tags and the provider-contributed tags |
| Reconcile.LabelsOfMembers | elsewherr.py:303-307 | a label is reported exactly when it is non-empty and carried by a non-zero id of the difference |
| Reconcile.LabelsOf | elsewherr.py:303-307 | the readable labels of a set of ids; characterised by LabelsOfMembers |
| Reconcile.Added | elsewherr.py:303 | the labels of the new ids that are not current; disjoint from Removed by AddedRemovedDisjoint, empty for an unchanged set by NoChangeNoLabels |
| Reconcile.Removed | elsewherr.py:304 | the labels of the current ids that are not new; see AddedRemovedDisjoint and NoChangeNoLabels |
| Reconcile.ForeignTagsKept | elsewherr.py:284-298 | an unmanaged tag is never removed, and is added only when a provider contributes it |
| Reconcile.ManagedTagsRederived | elsewherr.py:284-298 | a managed current tag stays exactly when a provider contributes it again |
| Reconcile.DesiredIdempotent | elsewherr.py:284-301 | recomputing from the new set with the same provider data gives the same set |
| Reconcile.AddedRemovedDisjoint | elsewherr.py:303-307 | when no two ids share a label, no label is reported both added and removed |
| Reconcile.NoChangeNoLabels | elsewherr.py:301-307 | an unchanged set reports no added and no removed labels |
| Reconcile.EmptyPrefixReplacesAll | elsewherr.py:286-289 | with an empty prefix every tag is managed, so the new set is exactly the provider tags |
| Reconcile.UppercasePrefixTagsPersist | elsewherr.py:286-289 | with an upper-case letter in the prefix, a tag created for a provider is not managed and is never removed |
| Reconcile.LowercasePrefixSplitsExactly | elsewherr.py:284-298 | with a lower-case prefix and consistent tables, every provider tag is managed and the unmanaged part of the item is untouched |
| Worker.RunAttempt | elsewherr.py:249-327 | a returning pass reports for its item, fails only for a missing TMDB id, and succeeds exactly when it has no error reason; a raising pass has already replaced the local list with the set it tried to store, and raises only the exception its answer carries |
| Worker.AttemptUpdatesIffChanged | elsewherr.py:300-315 | a pass calls update exactly when the providers were read and the new set differs, with that set, and a success reports the two set differences |
| Worker.Retry | elsewherr.py:248-353 | the loop makes between one and three attempts, at most one update call per attempt; its result is that of the last attempt; a network error that ends the loop happens on the third attempt; only the last attempt's call can go through, and the stored tags change only with an update call |
| Worker.RetryWrites | elsewherr.py:309-333 | an update call goes through only on the attempt that ends the loop: the write count grows by one exactly when that attempt's call went through, and never by more than the calls issued; earlier attempts wrote nothing (that they raised is RetryOnlyAfterNetworkErrors) |
| Worker.RetryOnlyAfterNetworkErrors | elsewherr.py:248-353 | retrying from the stored tags, the loop goes on to another attempt only after a pass that raised a network error: every attempt before the last one raised one |
| Worker.RetriedAfterNetworkError | elsewherr.py:328-331 | the same for one attempt, by induction on the loop |
| Worker.RetryOnNetworkAnswers | elsewherr.py:248-353 | whatever set a retry starts from, an attempt that is not the last was answered with a network error, by the lookup or by the update call |
| Worker.NoRetryAfterOtherAnswers | elsewherr.py:248-353 | for the loop as written and the corrected one: every attempt before the last was answered with a network error, so a missing TMDB id, another exception or an update that goes through at attempt k ends the loop at k |
| Worker.RetryDecides | elsewherr.py:248-353 | the retry loop from the stored tags described attempt by attempt through RunAttempt, as ProcessItem's contract states |
| Worker.ProcessWith | elsewherr.py:236-353 | one outcome per item, of its service and title; failures carry a reason, no labels and leave the stored tags; a network-error failure took all three attempts; at most one update call goes through, only in a success, and the stored tags change only with it; the last attempt, run on the tags the loop started from (the stored tags when retrying from them), decides the outcome: a pass that returns gives its outcome and stored tags, one that raises gives the network or unexpected error |
| Worker.LastAttemptDecides | elsewherr.py:248-353 | for either retry base, the pass of the last attempt on the tags it started from gives the outcome and the stored tags when it returns, and the network or unexpected error when it raises |
| Worker.ProcessItem | elsewherr.py:236-353 | the loop with retries starting from the stored tags, described attempt by attempt: every attempt runs the `try` body on the stored tags; all but the last raised a network error; the last raised one only if it was the third; a last pass that returns gives the outcome and the stored tags; a last pass that raises gives the network or unexpected error and leaves the stored tags. ProcessWith's properties and SuccessStoresDesired hold too |
| Worker.ProcessItemAsWritten | elsewherr.py:236-353 | the loop as written, retrying from the overwritten local list; AsWrittenRetryLosesUpdate exhibits the lost update |
| Worker.MissingTmdbIdNoRetry | elsewherr.py:261-269 | a missing TMDB id is one "TMDB ID not found." error after one attempt and no update call |
| Worker.OtherErrorNoRetry | elsewherr.py:343-352 | a non-network exception is one "Unexpected error occurred." error with no retry |
| Worker.NetworkErrorsExhaustRetries | elsewherr.py:329-342 | network errors on every attempt give exactly three attempts and one network error |
| Worker.RecoversAfterNetworkErrors | elsewherr.py:329-332 | two network errors and then an answer give a success on the third attempt, which stores the new set with one update call, or none if nothing changes |
| Worker.RetryReissuesUpdate | elsewherr.py:309-333 | when the first update call raises a network error and the retry gets the same providers, the retry calls update again; two calls, one goes through, and the new set is stored |
| Worker.UpdateIffChanged | elsewherr.py:300-327 | a first attempt that gets through succeeds, stores the new set, calls update exactly when the set changed, and reports its differences |
| Worker.SuccessStoresDesired | elsewherr.py:284-327 | with retries starting from the stored tags, a success means the catalog stores the set computed from the item's tags and the successful attempt's providers, and the labels describe exactly that change |
| Worker.AttemptSuccessStores | elsewherr.py:300-327 | a successful pass had the providers, the catalog then holds the new set, and the reported labels describe that change |
| Worker.RetryFinishes | elsewherr.py:248-353 | retrying from the stored tags, a success ends with the last attempt's outcome and the set it wrote |
| Worker.AsWrittenRetryLosesUpdate | elsewherr.py:309-333 | as written, an update that raises a network error is followed by a retry that records success with no changes while the catalog still holds the old set |
| Worker.SecondRunNoUpdate | elsewherr.py:284-325 | processing the stored result again with the same providers makes no update call and reports no change |
| Aggregator.Truncate | elsewherr.py:173 | titles of at most 30 characters are kept; longer ones become their first 30 characters followed by "..." |
| Aggregator.Summary | elsewherr.py:161-167 | the summary is "No changes" exactly when no label was added or removed; otherwise it carries both sets |
| Aggregator.LogChange | elsewherr.py:157-182 | one change-log entry with the truncated title is appended; the error log is untouched; the counters step for the service |
| Aggregator.LogChangeCounters | elsewherr.py:177-182 | a success adds one processed, and one updated when a label changed; a failure adds one error only; other services are untouched |
| Aggregator.Contribution | elsewherr.py:177-182 | an outcome never counts as updated without counting as processed |
| Aggregator.WithError | elsewherr.py:262-349 | the three error-log appends (missing TMDB id at 262-267, network error after the retries at 335-339, unexpected error at 345-349): a failure appends one error entry with its service, full title and reason; a success changes nothing |
| Aggregator.Record | elsewherr.py:157-182 | recording an outcome keeps the earlier entries and appends the outcome's own change entry (service, truncated title, summary), one error entry exactly for a failure, and one counter step |
| Aggregator.RecordStats | elsewherr.py:177-182 | recording adds the outcome's contribution to every service's counters |
| Aggregator.RecordAll | elsewherr.py:400-409 | recording the outcomes one after another; characterised by RecordAllCounts and CompletionOrderIrrelevant |
| Aggregator.TallyCounts | elsewherr.py:177-182 | processed plus errors is the number of the service's outcomes, and updated never exceeds processed |
| Aggregator.TallyAppend | elsewherr.py:177-182 | the counters of two batches add up |
| Aggregator.RecordAllCounts | elsewherr.py:400-409 | recording a batch adds one change entry per outcome and the batch's tally to every service's counters |
| Aggregator.Entries | elsewherr.py:170-182 | the change entries of a batch, one per outcome |
| Aggregator.EntriesAt | elsewherr.py:170-182 | the i-th entry is built from the i-th outcome: its service, truncated title and summary |
| Aggregator.RecordAllEntries | elsewherr.py:400-409 | recording a batch appends exactly its entries to the change log |
| Aggregator.RecordAllChanges | elsewherr.py:400-409 | recording a batch keeps the earlier change entries, and the entry at position i after them is the i-th outcome's own |
| Aggregator.TallyPermutation | elsewherr.py:400-409 | the counters do not depend on the order in which the outcomes arrive |
| Aggregator.CompletionOrderIrrelevant | elsewherr.py:390-409 | any completion order of the workers gives the same counters and the same number of change entries |
| Service.IdToLabelEntries | elsewherr.py:383 | the id table holds exactly the listed ids; with distinct ids each maps to its own label |
| Service.LabelToIdEntries | elsewherr.py:384 | the label table holds exactly the listed labels; with distinct labels each maps to its own id |
| Service.IdToLabel | elsewherr.py:383 | the id-to-label table, later entries winning; characterised by IdToLabelEntries |
| Service.LabelToId | elsewherr.py:384 | the label-to-id table, later entries winning; characterised by LabelToIdEntries |
| Service.TablesFromDistinctTags | elsewherr.py:381-384 | a tag list with distinct ids and labels gives tables where no two ids share a label and every label resolves back to its id |
| Service.RunnerKeepsService | elsewherr.py:390-394 | every outcome a service's worker produces is filed under that service |
| Service.OutcomesOf | elsewherr.py:391-394 | there is one outcome per item |
| Service.OutcomesOfItems | elsewherr.py:391-394 | the i-th outcome is the worker's result for the i-th item |
| Service.TallyProcessedIsSuccesses | elsewherr.py:400-404 | for outcomes of one service, the processed counter grows by the number of successes |
| Service.TallyOtherService | elsewherr.py:177-182 | outcomes of one service leave another service's counters alone |
| Service.FoldCounters | elsewherr.py:386-409 | after one service's batch: one change entry per item, processed grows by the successes, processed plus errors by the item count, updated by at most the successes, the other service unchanged |
| Service.CollectOutcomes | elsewherr.py:400-409 | the loop records every outcome in completion order and counts the successes |
| Service.ProcessService | elsewherr.py:355-417 | the returned count is the number of successful items; every item is recorded once; only this service's counters move, by one processed or one error per item, and updated by at most the processed count; each item runs the corrected retry loop (see "Left out") |
| Nfo.Texts | radarr_tags_to_jellyfin_nfo.py:93 | the texts read in document order are exactly the NFO's label set, and none is empty |
| Nfo.NonTags | radarr_tags_to_jellyfin_nfo.py:104-105 | what is left after removing the tags holds no tag; NonTagsCounts and PartsAppend show that every other child stays, in order |
| Nfo.Tags | radarr_tags_to_jellyfin_nfo.py:92 | the children found are all tags; TagsCounts shows that every tag child is found |
| Nfo.NonTagsCounts | radarr_tags_to_jellyfin_nfo.py:104-105 | the removal keeps every child that is not a tag as often as it occurs and drops every tag |
| Nfo.TagsCounts | radarr_tags_to_jellyfin_nfo.py:92 | `findall` finds every tag child as often as it occurs, and nothing else |
| Nfo.Emit | radarr_tags_to_jellyfin_nfo.py:107-110 | one new tag per label, in the given order, each with its label as text |
| Nfo.TextsAppend | radarr_tags_to_jellyfin_nfo.py:93 | reading the texts of two runs of children concatenates their readings |
| Nfo.TextsOfEmit | radarr_tags_to_jellyfin_nfo.py:107-110 | reading back appended non-empty labels gives the labels, in order, all as tags |
| Nfo.NonTagsHaveNoText | radarr_tags_to_jellyfin_nfo.py:104-105 | once every tag is removed, no tag and no text is left |
| Nfo.PartsAppend | radarr_tags_to_jellyfin_nfo.py:104-110 | the tag and non-tag parts of a concatenation are the concatenated parts |
| Nfo.NonTagsIdempotent | radarr_tags_to_jellyfin_nfo.py:104-105 | removing the tags again removes nothing more |
| Nfo.LabelList | radarr_tags_to_jellyfin_nfo.py:82 | the labels listed are exactly the non-empty labels the item's known tag ids resolve to |
| Nfo.CatalogLabels | radarr_tags_to_jellyfin_nfo.py:82 | the item's Radarr label set; LabelList enumerates exactly it |
| Nfo.SyncLabels | radarr_tags_to_jellyfin_nfo.py:83 | the labels that start with the prefix; WithPrefix enumerates exactly them over LabelList |
| Nfo.WithPrefix | radarr_tags_to_jellyfin_nfo.py:83 | the entries kept are exactly those that start with the prefix |
| Nfo.Without | radarr_tags_to_jellyfin_nfo.py:96 | the entries kept are exactly those not in the excluded set |
| Nfo.StripSeparators | radarr_tags_to_jellyfin_nfo.py:67 | the result is a prefix of the path that does not end in a separator, and only separators were dropped |
| Nfo.StripSeparatorsUnique | sonarr_tags_to_jellyfin_nfo.py:68 | those three properties fix the stripped path uniquely |
| Nfo.MediaDir | radarr_tags_to_jellyfin_nfo.py:67-71 | an item is skipped for its path exactly when the path is all separators (or empty); otherwise the directory is the stripped, non-empty path |
| Nfo.RewritesBound | radarr_tags_to_jellyfin_nfo.py:120 | the count of rewritten files is at most the number of items, and zero exactly when nothing was rewritten |
| Nfo.SyncAll | radarr_tags_to_jellyfin_nfo.py:62-122 | every item is synced in catalog order, and the updated count is the number of rewrites, at most the item count |
| RadarrNfo.FinalLabels | radarr_tags_to_jellyfin_nfo.py:96-97 | NFO-only labels stay; a Radarr label is in the final set exactly when it has the prefix; nothing else enters |
| RadarrNfo.FinalListMembers | radarr_tags_to_jellyfin_nfo.py:96-107 | the enumerated final list holds exactly the final set, with no empty label |
| RadarrNfo.SyncNfo | radarr_tags_to_jellyfin_nfo.py:99-122 | the file is left alone exactly when the final set equals the NFO's current label set |
| RadarrNfo.ReplaceTags | radarr_tags_to_jellyfin_nfo.py:104-110 | dropping every tag and appending new ones leaves the other children and makes the tags exactly the appended labels |
| RadarrNfo.RewriteContents | radarr_tags_to_jellyfin_nfo.py:92-110 | a rewrite keeps the other children in order and appends the tags after all of them, and its tags carry exactly the final set, once each, in increasing order, each with text |
| RadarrNfo.SecondSyncNoChange | radarr_tags_to_jellyfin_nfo.py:82-110 | syncing again with the same Radarr tags writes nothing |
| Nfo.SyncItem | radarr_tags_to_jellyfin_nfo.py:64-89 | an item is skipped exactly when its path strips to nothing or its NFO is missing or unreadable; otherwise its NFO is synced against the item's tag ids |
| RadarrNfo.SyncMovies | radarr_tags_to_jellyfin_nfo.py:62-122 | every movie is synced in order, and the count is the number of rewritten NFO files |
| SonarrNfo.Unmanaged | sonarr_tags_to_jellyfin_nfo.py:105-110 | after the removal, no remaining child is a tag with prefixed text |
| SonarrNfo.PrefixedTexts | sonarr_tags_to_jellyfin_nfo.py:92-95 | the NFO's prefixed tag texts; PrefixedTextsAppend and NoPrefixedTextsLeft describe them across the rewrite |
| SonarrNfo.SyncNfo | sonarr_tags_to_jellyfin_nfo.py:92-99 | the file is left alone exactly when the NFO's prefixed texts equal the series' prefixed Sonarr labels |
| SonarrNfo.UnmanagedAppend | sonarr_tags_to_jellyfin_nfo.py:105-110 | the removal keeps the survivors in their order |
| SonarrNfo.UnmanagedCounts | sonarr_tags_to_jellyfin_nfo.py:105-110 | the removal drops every prefixed tag and keeps every other child as often as it occurs, textless and unprefixed tags included |
| SonarrNfo.PrefixedTextsAppend | sonarr_tags_to_jellyfin_nfo.py:92-95 | the prefixed texts of a concatenation are the union of the parts' |
| SonarrNfo.NoPrefixedTextsLeft | sonarr_tags_to_jellyfin_nfo.py:105-110 | after the removal no prefixed text is left |
| SonarrNfo.EmittedPrefixedTexts | sonarr_tags_to_jellyfin_nfo.py:112-115 | appended non-empty prefixed labels read back as exactly those labels |
| SonarrNfo.AppendedLabels | sonarr_tags_to_jellyfin_nfo.py:83-84 | the labels appended are the wanted set, strictly increasing, each non-empty and prefixed |
| SonarrNfo.RewriteContents | sonarr_tags_to_jellyfin_nfo.py:92-115 | a rewrite starts with the unmanaged children in order, then appends managed tags in increasing order; its prefixed texts are then exactly the wanted labels |
| SonarrNfo.SecondSyncNoChange | sonarr_tags_to_jellyfin_nfo.py:83-115 | syncing again with the same Sonarr tags writes nothing |
| SonarrNfo.SyncAllSeries | sonarr_tags_to_jellyfin_nfo.py:63-125 | every series is synced in order, and the count is the number of rewritten NFO files |

## Left out

- Network calls are not modelled: TMDB lookups, the catalog API and Gotify. What the network answers for each attempt is an input (`Worker.Response`).
- The response-shape probing is left out (elsewherr.py:275-282). The model starts from the region's flatrate list.
- TMDB id lookups are folded into one answer: the movie id, or the series' TVDB-to-TMDB lookup (elsewherr.py:250-259). An answer is the id, or "no id".
- The thread pool, the lock and the progress bar are not modelled. Outcomes are recorded one at a time, in completion order. `Aggregator.CompletionOrderIrrelevant` shows the counters do not depend on that order.
- Sleeping between retries is not modelled (elsewherr.py:332), and neither is the logging level.
- Change notifications are not modelled (elsewherr.py:316-323, `send_notification`). They are output only.
- The statistics tables and the update-rate percentage are not modelled (elsewherr.py:184-234). They are printing and floating point.
- The change summary text is not modelled. It is the removed and added labels, sorted and joined behind emoji markers. The model keeps the two sets (`Aggregator.ChangeSummary`).
- Tag creation at elsewherr.py:377-379 is not modelled. The catalog's tag list after creation is an input to `Service.ProcessService`.
- Service.ProcessService: each item runs the corrected retry loop (`Worker.ProcessItem`), which restarts from the tags the catalog stores. The program submits the loop as written (elsewherr.py:390-394). On the Findings input the program logs a "No changes" success and leaves `updated` as it was, while the model logs the added label and counts one update. Runs of the loop as written are covered item by item (`Worker.ProcessItemAsWritten`, `Worker.AsWrittenRetryLosesUpdate`), not per service.
- The early return when the media list cannot be fetched is not modelled (elsewherr.py:373-375). `ProcessService` starts from the fetched list.
- Reading the configuration, command-line arguments and logging setup are not modelled.
- `res_generator.py` is not part of this model.
- `Worker.Responses`: three answers are fixed per item. Answers past the attempt that ends the loop are ignored.
- `Worker.Catalog` has only the two services the program passes, Radarr and Sonarr. The counters are one record per service instead of a dictionary keyed by name.
- `Strings.Lower`: lower-casing covers ASCII letters only. Python's `str.lower` also maps non-ASCII upper-case letters.
- In the NFO scripts, XML parsing, pretty-printing and file writes are not modelled. An NFO is the list of its root's direct children. `nfo` is `None` when the file is missing or does not parse; the script then skips the item or logs the error.
- The NFO scripts' per-item exception handler (radarr_tags_to_jellyfin_nfo.py:124-127) is reduced to the unreadable-NFO case.
- The NFO scripts crash on a path that is present but null. That case is not modelled: `path` is a string, with `""` for a missing key.
- An item's `title` is a string. A missing title key is not modelled: `item["title"]` (elsewherr.py:242) is read before the `try`, so the KeyError leaves the worker and the loop over completions swallows it (elsewherr.py:402-407). Such an item gets no outcome, no error entry and no counter step, so it falls outside "one outcome per item".
- Worker.Retry: an update call that raises is taken to have raised before the catalog applied the write (a connection error, say), so the stored tags and the write count stay as they were. A timeout raised after the catalog applied the write is not modelled. `Worker.ProcessWith`'s "failures leave the stored tags" rests on this assumption.
- Update calls per item are not bounded by one: after a call that raised, a retry issues it again (`Worker.RetryReissuesUpdate`). The model bounds the calls that go through, at most one per item (`Worker.ProcessWith`).
- `Worker.ItemRun.from` records the local tag set the last attempt started from. It is a model observable with no counterpart in the source.

## Findings

| source | as written | input that shows it | evidently intended | confidence | as-written member | corrected member |
|---|---|---|---|---|---|---|
| elsewherr.py:309-333 | `item["tags"]` is set to the new list before the update call. When that call raises a network error, the next attempt recomputes from the overwritten list, finds no difference, and records a success with "No changes" | prefix "p", provider "a" with tag 1 labelled "pa", item with no tags. The first update raises a connection error before the request reaches the catalog; the second attempt gets the same providers | a retry recomputes from the tags the catalog stores, so a success means the new set was written | not executed | Worker.AsWrittenRetryLosesUpdate | Worker.SuccessStoresDesired |

`Worker.ProcessItemAsWritten` is the loop as written. `Worker.ProcessItem` restarts from the stored tags, and the rest of the model uses it.

=== FILE: aggregator.dfy ===
/** The run aggregator of elsewherr.py: `_log_change` together with the
    error-log append that precedes it for failures. Workers hand their outcomes
    over under a lock; the model applies them one after the other, in whatever
    order they completed. */
module Aggregator {
  import opened Worker

  /** The per-service counters. */
  datatype Stats = Stats(processed: nat, updated: nat, errors: nat)

  /** The `changes` column of a change-log entry: "No changes", or the removed and added
      labels (rendered sorted behind a marker; the rendering is not modelled). */
  datatype ChangeSummary = NoChanges | Changes(removed: set<string>, added: set<string>)

  datatype Entry = Entry(service: Catalog, title: string, changes: ChangeSummary)

  /** An error-log entry; `reason.Message()` is the text shown for it. */
  datatype ErrorEntry = ErrorEntry(service: Catalog, title: string, reason: ErrorReason)

  /** The counters of both services. The source keeps them in a dictionary keyed by the
      service name that reads zero for a name not seen yet; with the two services fixed,
      one field per service plays that role. */
  datatype Counters = Counters(radarr: Stats, sonarr: Stats) {
    function Of(service: Catalog): Stats {
      match service
      case Radarr => radarr
      case Sonarr => sonarr
    }

    function With(service: Catalog, value: Stats): (r: Counters)
      ensures r.Of(service) == value
      ensures forall other :: other != service ==> r.Of(other) == Of(other)
    {
      match service
      case Radarr => Counters(value, sonarr)
      case Sonarr => Counters(radarr, value)
    }
  }

  const Zero := Stats(0, 0, 0)

  /** The shared run state: change log, error log and counters per service. */
  datatype Log = Log(changes: seq<Entry>, errors: seq<ErrorEntry>, stats: Counters)

  const EmptyLog := Log([], [], Counters(Zero, Zero))

  const TitleLimit: nat := 30

  /** `title[:30] + "..." if len(title) > 30 else title`. */
  function Truncate(title: string): (r: string)
    ensures |title| <= TitleLimit ==> r == title
    ensures |title| > TitleLimit ==> |r| == TitleLimit + 3 && r[..TitleLimit] == title[..TitleLimit] && r[TitleLimit..] == "..."
  {
    if |title| > TitleLimit then title[..TitleLimit] + "..." else title
  }

  /** The change summary is "No changes" exactly when no label was added or removed. */
  function Summary(added: set<string>, removed: set<string>): (r: ChangeSummary)
    ensures r.NoChanges? <==> added == {} && removed == {}
    ensures r.Changes? ==> r.removed == removed && r.added == added
  {
    if removed == {} && added == {} then NoChanges else Changes(removed, added)
  }

  function Plus(a: Stats, b: Stats): Stats {
    Stats(a.processed + b.processed, a.updated + b.updated, a.errors + b.errors)
  }

  lemma PlusAssociative(a: Stats, b: Stats, c: Stats)
    ensures Plus(Plus(a, b), c) == Plus(a, Plus(b, c))
  {
  }

  lemma PlusZero(a: Stats)
    ensures Plus(Zero, a) == a
  {
  }

  lemma PlusCommutative(a: Stats, b: Stats)
    ensures Plus(a, b) == Plus(b, a)
  {
  }

  function StatsOf(log: Log, service: Catalog): Stats {
    log.stats.Of(service)
  }

  /** The counter step `_log_change` makes for its service. */
  function Delta(success: bool, changed: bool): Stats {
    if success then Stats(1, if changed then 1 else 0, 0) else Stats(0, 0, 1)
  }

  /** The counter update of `_log_change`: one step for the named service only. */
  function Bump(stats: Counters, service: Catalog, changed: bool, success: bool): Counters {
    stats.With(service, Plus(stats.Of(service), Delta(success, changed)))
  }

  /** `_log_change`: one change-log entry and one counter step; a run counts as updated
      exactly when its change summary is not "No changes". */
  function LogChange(log: Log, service: Catalog, title: string, added: set<string>, removed: set<string>, success: bool): (r: Log)
    ensures r.changes == log.changes + [Entry(service, Truncate(title), Summary(added, removed))]
    ensures r.errors == log.errors
    ensures r.stats == Bump(log.stats, service, added != {} || removed != {}, success)
  {
    var entry := Entry(service, Truncate(title), Summary(added, removed));
    Log(log.changes + [entry], log.errors, Bump(log.stats, service, added != {} || removed != {}, success))
  }

  /** The counters `_log_change` leaves: a success counts as processed, and as updated when
      some label was added or removed; a failure counts as an error only; other services are untouched. */
  lemma LogChangeCounters(log: Log, service: Catalog, title: string, added: set<string>, removed: set<string>, success: bool, s: Catalog)
    ensures s != service ==> StatsOf(LogChange(log, service, title, added, removed, success), s) == StatsOf(log, s)
    ensures s == service && success ==>
      StatsOf(LogChange(log, service, title, added, removed, success), s).processed == StatsOf(log, s).processed + 1 &&
      StatsOf(LogChange(log, service, title, added, removed, success), s).errors == StatsOf(log, s).errors
    ensures s == service && success ==>
      StatsOf(LogChange(log, service, title, added, removed, success), s).updated ==
        StatsOf(log, s).updated + (if added != {} || removed != {} then 1 else 0)
    ensures s == service && !success ==>
      StatsOf(LogChange(log, service, title, added, removed, success), s).processed == StatsOf(log, s).processed &&
      StatsOf(LogChange(log, service, title, added, removed, success), s).updated == StatsOf(log, s).updated &&
      StatsOf(LogChange(log, service, title, added, removed, success), s).errors == StatsOf(log, s).errors + 1
  {
  }

  predicate Changed(o: Outcome) {
    o.added != {} || o.removed != {}
  }

  /** What one outcome adds to the counters of `service`. */
  function Contribution(o: Outcome, service: Catalog): (r: Stats)
    ensures r.updated <= r.processed
  {
    if o.service == service then Delta(o.success, Changed(o)) else Zero
  }

  /** The error-log append that precedes `_log_change` for a failure; the full title is kept. */
  function WithError(log: Log, o: Outcome): (r: Log)
    ensures r.changes == log.changes && r.stats == log.stats
    ensures r.errors == if o.success then log.errors else log.errors + [ErrorEntry(o.service, o.title, o.reason.GetOr(UnexpectedError))]
  {
    if o.success then log
    else Log(log.changes, log.errors + [ErrorEntry(o.service, o.title, o.reason.GetOr(UnexpectedError))], log.stats)
  }

  /** Handing one outcome to the aggregator: the error-log append, then `_log_change`. */
  function Record(log: Log, o: Outcome): (r: Log)
    ensures |r.changes| == |log.changes| + 1
    ensures r.changes == log.changes + [Entry(o.service, Truncate(o.title), Summary(o.added, o.removed))]
    ensures |r.errors| == |log.errors| + (if o.success then 0 else 1)
    ensures r.errors[..|log.errors|] == log.errors
    ensures r.stats == Bump(log.stats, o.service, Changed(o), o.success)
  {
    LogChange(WithError(log, o), o.service, o.title, o.added, o.removed, o.success)
  }

  /** Recording an outcome adds its contribution to every service's counters. */
  lemma RecordStats(log: Log, o: Outcome, s: Catalog)
    ensures StatsOf(Record(log, o), s) == Plus(StatsOf(log, s), Contribution(o, s))
  {
    var before := WithError(log, o);
    assert StatsOf(before, s) == StatsOf(log, s);
    LogChangeCounters(before, o.service, o.title, o.added, o.removed, o.success, s);
  }

  /** The outcomes handed over in completion order. */
  function RecordAll(log: Log, outcomes: seq<Outcome>): Log
    decreases |outcomes|
  {
    if |outcomes| == 0 then log else RecordAll(Record(log, outcomes[0]), outcomes[1..])
  }

  /** How many outcomes belong to `service`. */
  function CountFor(outcomes: seq<Outcome>, service: Catalog): nat
    decreases |outcomes|
  {
    if |outcomes| == 0 then 0
    else (if outcomes[0].service == service then 1 else 0) + CountFor(outcomes[1..], service)
  }

  /** The total a sequence of outcomes adds to the counters of `service`. */
  function Tally(outcomes: seq<Outcome>, service: Catalog): Stats
    decreases |outcomes|
  {
    if |outcomes| == 0 then Zero
    else Plus(Contribution(outcomes[0], service), Tally(outcomes[1..], service))
  }

  /** Every outcome of the service counts once, as processed or as an error, and only
      processed ones count as updated; when all outcomes are of the service, the
      processed and error counts add up to their number. */
  lemma {:induction false} TallyCounts(outcomes: seq<Outcome>, service: Catalog)
    ensures Tally(outcomes, service).processed + Tally(outcomes, service).errors == CountFor(outcomes, service) <= |outcomes|
    ensures Tally(outcomes, service).updated <= Tally(outcomes, service).processed
    ensures (forall i :: 0 <= i < |outcomes| ==> outcomes[i].service == service) ==> CountFor(outcomes, service) == |outcomes|
    decreases |outcomes|
  {
    if |outcomes| > 0 {
      var rest := outcomes[1..];
      TallyCounts(rest, service);
      assert Tally(outcomes, service) == Plus(Contribution(outcomes[0], service), Tally(rest, service));
      assert CountFor(outcomes, service) == (if outcomes[0].service == service then 1 else 0) + CountFor(rest, service);
      if forall i :: 0 <= i < |outcomes| ==> outcomes[i].service == service {
        assert forall i :: 0 <= i < |rest| ==> rest[i].service == service by {
          assert forall i :: 0 <= i < |rest| ==> rest[i] == outcomes[i + 1];
        }
      }
    }
  }

  lemma {:induction false} TallyAppend(a: seq<Outcome>, b: seq<Outcome>, service: Catalog)
    ensures Tally(a + b, service) == Plus(Tally(a, service), Tally(b, service))
    decreases |a|
  {
    if |a| > 0 {
      assert (a + b)[0] == a[0];
      assert (a + b)[1..] == a[1..] + b;
      TallyAppend(a[1..], b, service);
      var c := Contribution(a[0], service);
      assert Tally(a + b, service) == Plus(c, Tally(a[1..] + b, service));
      PlusAssociative(c, Tally(a[1..], service), Tally(b, service));
    } else {
      assert a + b == b;
      PlusZero(Tally(b, service));
    }
  }

  /** Recording a sequence of outcomes adds exactly one change-log entry per outcome, one
      error-log entry per failure at most, and their tally to the counters of every service `s`. */
  lemma {:induction false} RecordAllCounts(log: Log, outcomes: seq<Outcome>, s: Catalog)
    ensures |RecordAll(log, outcomes).changes| == |log.changes| + |outcomes|
    ensures |RecordAll(log, outcomes).errors| >= |log.errors|
    ensures StatsOf(RecordAll(log, outcomes), s) == Plus(StatsOf(log, s), Tally(outcomes, s))
    decreases |outcomes|
  {
    if |outcomes| > 0 {
      var first := Record(log, outcomes[0]);
      assert RecordAll(log, outcomes) == RecordAll(first, outcomes[1..]);
      assert Tally(outcomes, s) == Plus(Contribution(outcomes[0], s), Tally(outcomes[1..], s));
      RecordAllCounts(first, outcomes[1..], s);
      RecordStats(log, outcomes[0], s);
      PlusAssociative(StatsOf(log, s), Contribution(outcomes[0], s), Tally(outcomes[1..], s));
    }
  }

  /** The change-log entries of a sequence of outcomes, one per outcome and in order. */
  function Entries(outcomes: seq<Outcome>): (r: seq<Entry>)
    ensures |r| == |outcomes|
    decreases |outcomes|
  {
    if |outcomes| == 0 then []
    else [Entry(outcomes[0].service, Truncate(outcomes[0].title), Summary(outcomes[0].added, outcomes[0].removed))] + Entries(outcomes[1..])
  }

  /** The `i`-th entry is the `i`-th outcome's: its service, truncated title and summary. */
  lemma {:induction false} EntriesAt(outcomes: seq<Outcome>, i: nat)
    requires i < |outcomes|
    ensures Entries(outcomes)[i] == Entry(outcomes[i].service, Truncate(outcomes[i].title), Summary(outcomes[i].added, outcomes[i].removed))
    decreases i
  {
    if i > 0 {
      EntriesAt(outcomes[1..], i - 1);
      assert outcomes[1..][i - 1] == outcomes[i];
    }
  }

  /** Recording a sequence of outcomes appends their entries to the change log. */
  lemma {:induction false} RecordAllEntries(log: Log, outcomes: seq<Outcome>)
    ensures RecordAll(log, outcomes).changes == log.changes + Entries(outcomes)
    decreases |outcomes|
  {
    if |outcomes| == 0 {
      assert log.changes + Entries(outcomes) == log.changes;
    } else {
      var first := Record(log, outcomes[0]);
      var e := Entry(outcomes[0].service, Truncate(outcomes[0].title), Summary(outcomes[0].added, outcomes[0].removed));
      assert RecordAll(log, outcomes) == RecordAll(first, outcomes[1..]);
      RecordAllEntries(first, outcomes[1..]);
      assert first.changes == log.changes + [e];
      assert Entries(outcomes) == [e] + Entries(outcomes[1..]);
      EntryAppendAssociative(log.changes, e, Entries(outcomes[1..]));
    }
  }

  lemma EntryAppendAssociative(a: seq<Entry>, e: Entry, b: seq<Entry>)
    ensures (a + [e]) + b == a + ([e] + b)
  {
  }

  /** Recording a sequence of outcomes keeps the earlier change-log entries and appends
      each outcome's own entry, in the order the outcomes are handed over. */
  lemma RecordAllChanges(log: Log, outcomes: seq<Outcome>)
    ensures |RecordAll(log, outcomes).changes| == |log.changes| + |outcomes|
    ensures RecordAll(log, outcomes).changes[..|log.changes|] == log.changes
    ensures forall i :: 0 <= i < |outcomes| ==>
      RecordAll(log, outcomes).changes[|log.changes| + i] == Entry(outcomes[i].service, Truncate(outcomes[i].title), Summary(outcomes[i].added, outcomes[i].removed))
  {
    RecordAllEntries(log, outcomes);
    var changes := RecordAll(log, outcomes).changes;
    var entries := Entries(outcomes);
    assert changes[..|log.changes|] == log.changes;
    forall i | 0 <= i < |outcomes|
      ensures changes[|log.changes| + i] == Entry(outcomes[i].service, Truncate(outcomes[i].title), Summary(outcomes[i].added, outcomes[i].removed))
    {
      EntriesAt(outcomes, i);
      assert changes[|log.changes| + i] == entries[i];
    }
  }

  lemma {:induction false} RecordAllAppend(log: Log, outcomes: seq<Outcome>, o: Outcome)
    ensures RecordAll(log, outcomes + [o]) == Record(RecordAll(log, outcomes), o)
    decreases |outcomes|
  {
    if |outcomes| == 0 {
      assert outcomes + [o] == [o];
      assert [o][1..] == [];
    } else {
      assert (outcomes + [o])[1..] == outcomes[1..] + [o];
      RecordAllAppend(Record(log, outcomes[0]), outcomes[1..], o);
    }
  }

  /** Taking one outcome out of the sequence takes its contribution out of the tally. */
  lemma TallyRemove(b: seq<Outcome>, k: nat, service: Catalog)
    requires k < |b|
    ensures Tally(b, service) == Plus(Contribution(b[k], service), Tally(b[..k] + b[k + 1..], service))
  {
    var x := b[k];
    var c := Contribution(x, service);
    var front, back := Tally(b[..k], service), Tally(b[k + 1..], service);
    assert b == b[..k] + [x] + b[k + 1..];
    assert Tally([x], service) == c by {
      assert Tally([x][1..], service) == Zero;
    }
    TallyAppend(b[..k] + [x], b[k + 1..], service);
    TallyAppend(b[..k], [x], service);
    TallyAppend(b[..k], b[k + 1..], service);
    PlusAssociative(front, c, back);
    PlusAssociative(c, front, back);
    PlusCommutative(front, c);
  }

  /** Removing the first element of `a` and a matching element of `b` keeps them permutations of each other. */
  lemma RemoveMatching(a: seq<Outcome>, b: seq<Outcome>, k: nat)
    requires multiset(a) == multiset(b) && 0 < |a| && k < |b| && b[k] == a[0]
    ensures multiset(a[1..]) == multiset(b[..k] + b[k + 1..])
  {
    var x := a[0];
    var rest := b[..k] + b[k + 1..];
    assert a == [x] + a[1..];
    assert b == b[..k] + [x] + b[k + 1..];
    assert multiset(a) == multiset(a[1..]) + multiset{x};
    assert multiset(b) == multiset(rest) + multiset{x};
    assert multiset(a[1..]) == multiset(a) - multiset{x};
    assert multiset(rest) == multiset(b) - multiset{x};
  }

  /** The tally does not depend on the order in which the outcomes arrive. */
  lemma {:induction false} TallyPermutation(a: seq<Outcome>, b: seq<Outcome>, service: Catalog)
    requires multiset(a) == multiset(b)
    ensures Tally(a, service) == Tally(b, service)
    decreases |a|
  {
    if |a| == 0 {
      assert |b| == |multiset(b)| == 0;
    } else {
      var x := a[0];
      assert x in multiset(b);
      var k :| 0 <= k < |b| && b[k] == x;
      var rest := b[..k] + b[k + 1..];
      RemoveMatching(a, b, k);
      TallyPermutation(a[1..], rest, service);
      TallyRemove(b, k, service);
    }
  }

  /** However the workers' completions interleave, the counters come out the same and
      the change log holds one entry per outcome. */
  lemma CompletionOrderIrrelevant(log: Log, a: seq<Outcome>, b: seq<Outcome>)
    requires multiset(a) == multiset(b)
    ensures |RecordAll(log, a).changes| == |RecordAll(log, b).changes| == |log.changes| + |a|
    ensures forall s :: StatsOf(RecordAll(log, a), s) == StatsOf(RecordAll(log, b), s)
  {
    assert |a| == |multiset(a)| == |multiset(b)| == |b|;
    RecordAllCounts(log, a, Radarr);
    RecordAllCounts(log, b, Radarr);
    forall s ensures StatsOf(RecordAll(log, a), s) == StatsOf(RecordAll(log, b), s) {
      RecordAllCounts(log, a, s);
      RecordAllCounts(log, b, s);
      TallyPermutation(a, b, s);
    }
  }
}

=== FILE: nfo.dfy ===
/** What the two NFO sync scripts share: the NFO root's children, the label sets
    read from the catalog, the trailing-separator strip of a media path, and the
    loop over the catalog's items that counts rewritten files. */
module Nfo {
  import opened Wrappers
  import opened Strings
  import opened Reconcile

  /** A child element of the NFO root: a `<tag>` with its text (`None` when it has
      none), or any other element, which the scripts never look into. */
  datatype Node = Tag(text: Option<string>) | Other(name: string)

  /** Python's `if elem.text`: present and non-empty. */
  predicate HasText(n: Node) {
    n.Tag? && n.text.Some? && n.text.value != ""
  }

  /** `{elem.text for elem in root.findall('./tag') if elem.text}`. */
  function TextSet(nodes: seq<Node>): set<string> {
    set n | n in nodes && HasText(n) :: n.text.value
  }

  /** The tag texts in document order, one entry per element with text. */
  function Texts(nodes: seq<Node>): (r: seq<string>)
    ensures forall y :: y in r <==> y in TextSet(nodes)
    ensures forall i :: 0 <= i < |r| ==> r[i] != ""
    decreases |nodes|
  {
    if |nodes| == 0 then []
    else
      var rest := Texts(nodes[1..]);
      assert forall n :: n in nodes <==> n == nodes[0] || n in nodes[1..];
      if HasText(nodes[0]) then [nodes[0].text.value] + rest else rest
  }

  /** The children `root.remove` leaves when it removes every `<tag>`. */
  function NonTags(nodes: seq<Node>): (r: seq<Node>)
    ensures forall i :: 0 <= i < |r| ==> !r[i].Tag?
    decreases |nodes|
  {
    if |nodes| == 0 then []
    else (if nodes[0].Tag? then [] else [nodes[0]]) + NonTags(nodes[1..])
  }

  /** The `<tag>` children that `root.findall('./tag')` finds, in document order. */
  function Tags(nodes: seq<Node>): (r: seq<Node>)
    ensures forall i :: 0 <= i < |r| ==> r[i].Tag?
    decreases |nodes|
  {
    if |nodes| == 0 then []
    else (if nodes[0].Tag? then [nodes[0]] else []) + Tags(nodes[1..])
  }

  /** The removal keeps every child that is not a tag, as often as it occurs, and drops
      every tag; with `PartsAppend`, the kept children also keep their order. */
  lemma {:induction false} NonTagsCounts(nodes: seq<Node>)
    ensures forall n :: multiset(NonTags(nodes))[n] == if n.Tag? then 0 else multiset(nodes)[n]
    decreases |nodes|
  {
    if |nodes| > 0 {
      NonTagsCounts(nodes[1..]);
      assert nodes == [nodes[0]] + nodes[1..];
      var head := if nodes[0].Tag? then [] else [nodes[0]];
      assert multiset(nodes) == multiset([nodes[0]]) + multiset(nodes[1..]);
      assert multiset(NonTags(nodes)) == multiset(head) + multiset(NonTags(nodes[1..]));
    }
  }

  /** `findall` finds every tag child, as often as it occurs, and nothing else. */
  lemma {:induction false} TagsCounts(nodes: seq<Node>)
    ensures forall n :: multiset(Tags(nodes))[n] == if n.Tag? then multiset(nodes)[n] else 0
    decreases |nodes|
  {
    if |nodes| > 0 {
      TagsCounts(nodes[1..]);
      assert nodes == [nodes[0]] + nodes[1..];
      var head := if nodes[0].Tag? then [nodes[0]] else [];
      assert multiset(nodes) == multiset([nodes[0]]) + multiset(nodes[1..]);
      assert multiset(Tags(nodes)) == multiset(head) + multiset(Tags(nodes[1..]));
    }
  }

  /** One new `<tag>` element per label, appended in the given order. */
  function Emit(labels: seq<string>): (r: seq<Node>)
    ensures |r| == |labels|
    ensures forall i :: 0 <= i < |labels| ==> r[i].Tag? && r[i].text == Some(labels[i])
    decreases |labels|
  {
    if |labels| == 0 then [] else [Tag(Some(labels[0]))] + Emit(labels[1..])
  }

  /** Texts are read element by element, so reading a concatenation concatenates the readings. */
  lemma {:induction false} TextsAppend(a: seq<Node>, b: seq<Node>)
    ensures Texts(a + b) == Texts(a) + Texts(b)
    decreases |a|
  {
    if |a| == 0 {
      assert a + b == b;
    } else {
      assert (a + b)[0] == a[0];
      assert (a + b)[1..] == a[1..] + b;
      TextsAppend(a[1..], b);
    }
  }

  /** Reading back emitted tags gives the labels, when none of them is empty. */
  lemma {:induction false} TextsOfEmit(labels: seq<string>)
    requires forall i :: 0 <= i < |labels| ==> labels[i] != ""
    ensures Texts(Emit(labels)) == labels
    ensures Tags(Emit(labels)) == Emit(labels) && NonTags(Emit(labels)) == []
    decreases |labels|
  {
    if |labels| > 0 {
      var rest := labels[1..];
      assert forall i :: 0 <= i < |rest| ==> rest[i] != "" by {
        assert forall i :: 0 <= i < |rest| ==> rest[i] == labels[i + 1];
      }
      TextsOfEmit(rest);
      assert Emit(labels)[1..] == Emit(rest);
    }
  }

  /** Once every `<tag>` is removed, no tag and no text is left. */
  lemma {:induction false} NonTagsHaveNoText(nodes: seq<Node>)
    ensures Texts(NonTags(nodes)) == [] && Tags(NonTags(nodes)) == []
    decreases |nodes|
  {
    if |nodes| > 0 {
      NonTagsHaveNoText(nodes[1..]);
      var head := if nodes[0].Tag? then [] else [nodes[0]];
      PartsAppend(head, NonTags(nodes[1..]));
      TextsAppend(head, NonTags(nodes[1..]));
    }
  }

  /** Appending after the non-tag children: the tag part is what was appended. */
  lemma {:induction false} PartsAppend(a: seq<Node>, b: seq<Node>)
    ensures Tags(a + b) == Tags(a) + Tags(b)
    ensures NonTags(a + b) == NonTags(a) + NonTags(b)
    decreases |a|
  {
    if |a| == 0 {
      assert a + b == b;
    } else {
      assert (a + b)[0] == a[0];
      assert (a + b)[1..] == a[1..] + b;
      PartsAppend(a[1..], b);
    }
  }

  /** Removing the tags twice removes nothing more. */
  lemma {:induction false} NonTagsIdempotent(nodes: seq<Node>)
    ensures NonTags(NonTags(nodes)) == NonTags(nodes)
    decreases |nodes|
  {
    if |nodes| > 0 {
      NonTagsIdempotent(nodes[1..]);
      var head := if nodes[0].Tag? then [] else [nodes[0]];
      PartsAppend(head, NonTags(nodes[1..]));
    }
  }

  /** `{id_to_label.get(t) for t in tags if id_to_label.get(t)}`: the non-empty labels the
      item's tag ids resolve to; ids the catalog does not know add nothing. */
  function CatalogLabels(ids: seq<TagId>, idToLabel: map<TagId, string>): set<string> {
    set t | t in ids && t in idToLabel && idToLabel[t] != "" :: idToLabel[t]
  }

  /** The catalog labels in the order of the item's ids, one entry per resolving id. */
  function LabelList(ids: seq<TagId>, idToLabel: map<TagId, string>): (r: seq<string>)
    ensures forall y :: y in r <==> y in CatalogLabels(ids, idToLabel)
    ensures forall i :: 0 <= i < |r| ==> r[i] != ""
    decreases |ids|
  {
    if |ids| == 0 then []
    else
      var rest := LabelList(ids[1..], idToLabel);
      assert forall t :: t in ids <==> t == ids[0] || t in ids[1..];
      if ids[0] in idToLabel && idToLabel[ids[0]] != "" then [idToLabel[ids[0]]] + rest else rest
  }

  /** `{label for label in labels if label.startswith(TAG_PREFIX)}`. */
  function SyncLabels(labels: set<string>, prefix: string): set<string> {
    set l | l in labels && StartsWith(l, prefix)
  }

  /** The entries of `xs` that start with `prefix`, in order. */
  function WithPrefix(xs: seq<string>, prefix: string): (r: seq<string>)
    ensures forall y :: y in r <==> y in xs && StartsWith(y, prefix)
    ensures forall i :: 0 <= i < |r| ==> r[i] in xs
    decreases |xs|
  {
    if |xs| == 0 then []
    else
      var rest := WithPrefix(xs[1..], prefix);
      assert forall y :: y in xs <==> y == xs[0] || y in xs[1..];
      if StartsWith(xs[0], prefix) then [xs[0]] + rest else rest
  }

  /** The entries of `xs` that are not in `s`, in order. */
  function Without(xs: seq<string>, s: set<string>): (r: seq<string>)
    ensures forall y :: y in r <==> y in xs && y !in s
    ensures forall i :: 0 <= i < |r| ==> r[i] in xs
    decreases |xs|
  {
    if |xs| == 0 then []
    else
      var rest := Without(xs[1..], s);
      assert forall y :: y in xs <==> y == xs[0] || y in xs[1..];
      if xs[0] in s then rest else [xs[0]] + rest
  }

  predicate IsSeparator(c: char) {
    c == '/' || c == '\\'
  }

  /** `path.rstrip('/\\')`: the longest prefix of `path` that does not end in a separator. */
  function StripSeparators(path: string): (r: string)
    ensures r <= path
    ensures r == "" || !IsSeparator(r[|r| - 1])
    ensures forall i :: |r| <= i < |path| ==> IsSeparator(path[i])
    decreases |path|
  {
    if |path| > 0 && IsSeparator(path[|path| - 1]) then StripSeparators(path[..|path| - 1]) else path
  }

  /** The three properties above pin the stripped path down: any prefix that has them is it. */
  lemma StripSeparatorsUnique(path: string, r: string)
    requires r <= path
    requires r == "" || !IsSeparator(r[|r| - 1])
    requires forall i :: |r| <= i < |path| ==> IsSeparator(path[i])
    ensures r == StripSeparators(path)
  {
  }

  /** The media directory, or `None` when the script skips the item: the stripped path is
      empty exactly when the path consists of separators only (or is missing). */
  function MediaDir(path: string): (r: Option<string>)
    ensures r.None? <==> forall i :: 0 <= i < |path| ==> IsSeparator(path[i])
    ensures r.Some? ==> r.value == StripSeparators(path) && r.value != ""
  {
    var dir := StripSeparators(path);
    if dir == "" then None else Some(dir)
  }

  /** A catalog item as the sync scripts read it; a missing `path` or `tags` key is `""` or
      `[]`, and `nfo` is `None` when there is no NFO file or it does not parse. */
  datatype MediaItem = MediaItem(title: string, path: string, tags: seq<TagId>, nfo: Option<seq<Node>>)

  /** What a sync decides for one NFO file. */
  datatype Sync = NoChange | Rewrite(nodes: seq<Node>)

  /** What happens to one item: skipped before its NFO is read, or synced. */
  datatype ItemResult = Skipped | Synced(sync: Sync)

  /** One item: skipped when its path strips to nothing or its NFO is missing or does not
      parse; otherwise its NFO is synced against the item's tag ids by `sync`. */
  function SyncItem(item: MediaItem, sync: (seq<TagId>, seq<Node>) -> Sync): (r: ItemResult)
    ensures r.Skipped? <==> MediaDir(item.path).None? || item.nfo.None?
    ensures r.Synced? ==> r.sync == sync(item.tags, item.nfo.value)
  {
    match (MediaDir(item.path), item.nfo)
    case (Some(_), Some(nodes)) => Synced(sync(item.tags, nodes))
    case _ => Skipped
  }

  predicate Rewritten(r: ItemResult) {
    r.Synced? && r.sync.Rewrite?
  }

  /** How many files were rewritten. */
  function Rewrites(results: seq<ItemResult>): nat
    decreases |results|
  {
    if |results| == 0 then 0 else Rewrites(results[..|results| - 1]) + (if Rewritten(results[|results| - 1]) then 1 else 0)
  }

  lemma {:induction false} RewritesBound(results: seq<ItemResult>)
    ensures Rewrites(results) <= |results|
    ensures Rewrites(results) == 0 <==> forall i :: 0 <= i < |results| ==> !Rewritten(results[i])
    decreases |results|
  {
    if |results| > 0 {
      var init := results[..|results| - 1];
      RewritesBound(init);
      assert forall i :: 0 <= i < |init| ==> init[i] == results[i];
    }
  }

  /** The script's main loop: every item is synced by `step` in catalog order, and
      `updated_count` counts the rewritten files. */
  method SyncAll(items: seq<MediaItem>, step: MediaItem -> ItemResult) returns (results: seq<ItemResult>, updated: nat)
    ensures |results| == |items|
    ensures forall i :: 0 <= i < |items| ==> results[i] == step(items[i])
    ensures updated == Rewrites(results) <= |items|
  {
    results := [];
    updated := 0;
    var i := 0;
    while i < |items|
      invariant 0 <= i <= |items|
      invariant |results| == i
      invariant forall k :: 0 <= k < i ==> results[k] == step(items[k])
      invariant updated == Rewrites(results)
    {
      var r := step(items[i]);
      assert (results + [r])[..i] == results;
      results := results + [r];
      if Rewritten(r) {
        updated := updated + 1;
      }
      i := i + 1;
    }
    RewritesBound(results);
  }
}

=== FILE: radarr_nfo.dfy ===
/** radarr_tags_to_jellyfin_nfo.py: the movie's NFO tag set is rebuilt from the
    NFO's own labels and the movie's Radarr labels, and on a change every `<tag>`
    is dropped and the final labels are appended once each, sorted. */
module RadarrNfo {
  import opened Strings
  import opened Reconcile
  import opened Nfo

  /** The final label set: NFO labels Radarr does not hold, plus the prefixed Radarr labels.
      NFO-only labels stay, Radarr labels without the prefix go, and every prefixed Radarr
      label is present; nothing comes from anywhere else. */
  function FinalLabels(current: set<string>, radarr: set<string>, prefix: string): (r: set<string>)
    ensures forall l :: l in current && l !in radarr ==> l in r
    ensures forall l :: l in radarr ==> (l in r <==> StartsWith(l, prefix))
    ensures r <= current + radarr
  {
    (set l | l in current && l !in radarr) + SyncLabels(radarr, prefix)
  }

  /** The final labels enumerated from the inputs, for `sorted(list(final))`. */
  function FinalList(prefix: string, idToLabel: map<TagId, string>, ids: seq<TagId>, nodes: seq<Node>): seq<string> {
    Without(Texts(nodes), CatalogLabels(ids, idToLabel)) + WithPrefix(LabelList(ids, idToLabel), prefix)
  }

  /** The sync of one movie's NFO: no write unless the final set differs from the NFO's
      current labels; otherwise the non-tag children stay and the final labels follow, sorted. */
  function SyncNfo(prefix: string, idToLabel: map<TagId, string>, ids: seq<TagId>, nodes: seq<Node>): (r: Sync)
    ensures r.NoChange? <==> FinalLabels(TextSet(nodes), CatalogLabels(ids, idToLabel), prefix) == TextSet(nodes)
  {
    var current := TextSet(nodes);
    if FinalLabels(current, CatalogLabels(ids, idToLabel), prefix) == current then NoChange
    else Rewrite(NonTags(nodes) + Emit(SortDedup(FinalList(prefix, idToLabel, ids, nodes))))
  }

  /** The labels the enumeration lists are the final set, and none of them is empty. */
  lemma FinalListMembers(prefix: string, idToLabel: map<TagId, string>, ids: seq<TagId>, nodes: seq<Node>)
    ensures forall y :: y in FinalList(prefix, idToLabel, ids, nodes) <==>
      y in FinalLabels(TextSet(nodes), CatalogLabels(ids, idToLabel), prefix)
    ensures forall y :: y in FinalList(prefix, idToLabel, ids, nodes) ==> y != ""
  {
    var radarr := CatalogLabels(ids, idToLabel);
    var a := Without(Texts(nodes), radarr);
    var b := WithPrefix(LabelList(ids, idToLabel), prefix);
    assert forall y :: y in a + b <==> y in a || y in b;
    forall y | y in FinalList(prefix, idToLabel, ids, nodes) ensures y != "" {
      if y in a {
        var i :| 0 <= i < |a| && a[i] == y;
        var j :| 0 <= j < |Texts(nodes)| && Texts(nodes)[j] == y;
      } else {
        var i :| 0 <= i < |b| && b[i] == y;
        var j :| 0 <= j < |LabelList(ids, idToLabel)| && LabelList(ids, idToLabel)[j] == y;
      }
    }
  }

  /** Dropping every `<tag>` and appending new ones: the other children are untouched, and
      the tags and texts of the result are exactly the appended labels. */
  lemma ReplaceTags(nodes: seq<Node>, labels: seq<string>)
    requires forall i :: 0 <= i < |labels| ==> labels[i] != ""
    ensures var out := NonTags(nodes) + Emit(labels);
      && NonTags(out) == NonTags(nodes)
      && Tags(out) == Emit(labels)
      && Texts(out) == labels
  {
    var emitted := Emit(labels);
    TextsOfEmit(labels);
    NonTagsHaveNoText(nodes);
    PartsAppend(NonTags(nodes), emitted);
    TextsAppend(NonTags(nodes), emitted);
    NonTagsIdempotent(nodes);
  }

  /** A rewrite keeps every non-tag child in place and order, appends the tags after all
      of them, and emits the final labels once each, every one as a `<tag>` with text, in
      strictly increasing order; textless tags are gone. */
  lemma RewriteContents(prefix: string, idToLabel: map<TagId, string>, ids: seq<TagId>, nodes: seq<Node>)
    requires SyncNfo(prefix, idToLabel, ids, nodes).Rewrite?
    ensures var out := SyncNfo(prefix, idToLabel, ids, nodes).nodes;
      && NonTags(out) == NonTags(nodes)
      && out == NonTags(nodes) + Tags(out)
      && TextSet(out) == FinalLabels(TextSet(nodes), CatalogLabels(ids, idToLabel), prefix)
      && (forall i :: 0 <= i < |Tags(out)| ==> HasText(Tags(out)[i]))
      && Texts(out) == Texts(Tags(out))
      && StrictlySorted(Texts(out))
  {
    var labels := SortDedup(FinalList(prefix, idToLabel, ids, nodes));
    var emitted := Emit(labels);
    FinalListMembers(prefix, idToLabel, ids, nodes);
    assert forall i :: 0 <= i < |labels| ==> labels[i] != "" by {
      assert forall i :: 0 <= i < |labels| ==> labels[i] in labels;
    }
    ReplaceTags(nodes, labels);
    TextsOfEmit(labels);
    forall i | 0 <= i < |emitted| ensures HasText(emitted[i]) {
      assert labels[i] in labels;
    }
  }

  /** Syncing again with the same Radarr tags changes nothing, whether or not the first sync
      wrote: the prefixed labels it adds are Radarr labels, which the second sync keeps. */
  lemma SecondSyncNoChange(prefix: string, idToLabel: map<TagId, string>, ids: seq<TagId>, nodes: seq<Node>)
    ensures var first := SyncNfo(prefix, idToLabel, ids, nodes);
      var after := if first.Rewrite? then first.nodes else nodes;
      SyncNfo(prefix, idToLabel, ids, after) == NoChange
  {
    var first := SyncNfo(prefix, idToLabel, ids, nodes);
    if first.Rewrite? {
      RewriteContents(prefix, idToLabel, ids, nodes);
      var radarr := CatalogLabels(ids, idToLabel);
      var final := FinalLabels(TextSet(nodes), radarr, prefix);
      assert TextSet(first.nodes) == final;
      assert FinalLabels(final, radarr, prefix) == final;
    }
  }

  /** One movie, by the shared skip rule. */
  function SyncMovie(prefix: string, idToLabel: map<TagId, string>, movie: MediaItem): ItemResult {
    SyncItem(movie, (ids, nodes) => SyncNfo(prefix, idToLabel, ids, nodes))
  }

  /** The script's loop over the movies. */
  method SyncMovies(prefix: string, idToLabel: map<TagId, string>, movies: seq<MediaItem>) returns (results: seq<ItemResult>, updated: nat)
    ensures |results| == |movies|
    ensures forall i :: 0 <= i < |movies| ==> results[i] == SyncMovie(prefix, idToLabel, movies[i])
    ensures updated == Rewrites(results) <= |movies|
  {
    results, updated := SyncAll(movies, movie => SyncMovie(prefix, idToLabel, movie));
  }
}

=== FILE: reconcile.dfy ===
/** The tag computation of elsewherr.py for one item: keep every tag whose
    label does not carry the prefix, add the tags of the configured providers
    that stream the title, and diff the result against the current tags. */
module Reconcile {
  import opened Wrappers
  import opened Strings
  import opened TagCodec

  /** Catalog tag ids are integers; Python treats the id 0 as false. */
  type TagId = int

  /** The script's settings that the computation reads: the prefix and the configured provider names. */
  datatype Config = Config(prefix: string, providers: seq<string>)

  /** The two lookup tables built from the catalog's tag list before any item is processed. */
  datatype Tables = Tables(idToLabel: map<TagId, string>, labelToId: map<string, TagId>)

  /** `tags_id_to_label.get(t, "")`. */
  function LabelOf(tables: Tables, t: TagId): string {
    if t in tables.idToLabel then tables.idToLabel[t] else ""
  }

  /** The "managed" test: the label (empty when unknown) starts with the raw prefix. */
  predicate IsManaged(cfg: Config, tables: Tables, t: TagId) {
    StartsWith(LabelOf(tables, t), cfg.prefix)
  }

  /** The tag one flatrate provider entry contributes: its name must be configured,
      its label must resolve, and the resolved id must be truthy. */
  function ProviderTag(cfg: Config, tables: Tables, name: Option<string>): (r: Option<TagId>)
    ensures r.Some? <==>
      name.Some? && name.value in cfg.providers
      && Label(cfg.prefix, name.value) in tables.labelToId
      && tables.labelToId[Label(cfg.prefix, name.value)] != 0
    ensures r.Some? ==> r.value == tables.labelToId[Label(cfg.prefix, name.value)]
  {
    if name.Some? && name.value in cfg.providers then
      var l := Label(cfg.prefix, name.value);
      if l in tables.labelToId && tables.labelToId[l] != 0 then Some(tables.labelToId[l]) else None
    else None
  }

  /** The ids added by the loop over the flatrate providers. */
  function ProviderIds(cfg: Config, tables: Tables, flatrate: seq<Option<string>>): set<TagId>
    decreases |flatrate|
  {
    if |flatrate| == 0 then {}
    else
      var rest := ProviderIds(cfg, tables, flatrate[1..]);
      match ProviderTag(cfg, tables, flatrate[0])
      case Some(t) => {t} + rest
      case None => rest
  }

  /** An id is added exactly when some flatrate entry names a configured provider whose
      label resolves to it; the falsy id 0 never is. */
  lemma {:induction false} ProviderIdsMembers(cfg: Config, tables: Tables, flatrate: seq<Option<string>>)
    ensures forall t :: t in ProviderIds(cfg, tables, flatrate) <==> exists i :: 0 <= i < |flatrate| && ProviderTag(cfg, tables, flatrate[i]) == Some(t)
    ensures 0 !in ProviderIds(cfg, tables, flatrate)
    decreases |flatrate|
  {
    if |flatrate| > 0 {
      ProviderIdsMembers(cfg, tables, flatrate[1..]);
      assert forall i :: 0 < i < |flatrate| ==> flatrate[i] == flatrate[1..][i - 1];
      forall t | exists i :: 0 <= i < |flatrate| && ProviderTag(cfg, tables, flatrate[i]) == Some(t)
        ensures t in ProviderIds(cfg, tables, flatrate)
      {
        var i :| 0 <= i < |flatrate| && ProviderTag(cfg, tables, flatrate[i]) == Some(t);
        if i > 0 {
          assert ProviderTag(cfg, tables, flatrate[1..][i - 1]) == Some(t);
        }
      }
    }
  }

  /** The current tags that are not managed. */
  function Foreign(cfg: Config, tables: Tables, current: set<TagId>): (r: set<TagId>)
    ensures r <= current
    ensures forall t :: t in r <==> t in current && !IsManaged(cfg, tables, t)
  {
    set t | t in current && !IsManaged(cfg, tables, t)
  }

  /** The new tag set of an item: the current foreign tags plus the provider tags. */
  function Desired(cfg: Config, tables: Tables, current: set<TagId>, flatrate: seq<Option<string>>): set<TagId> {
    Foreign(cfg, tables, current) + ProviderIds(cfg, tables, flatrate)
  }

  /** The new tag set holds the current tags that are not managed and the tag of every
      configured provider offering the title whose label resolves; nothing else. */
  lemma DesiredMembers(cfg: Config, tables: Tables, current: set<TagId>, flatrate: seq<Option<string>>)
    ensures forall t :: t in Desired(cfg, tables, current, flatrate) <==>
      (t in current && !IsManaged(cfg, tables, t))
      || exists i :: 0 <= i < |flatrate| && ProviderTag(cfg, tables, flatrate[i]) == Some(t)
  {
    ProviderIdsMembers(cfg, tables, flatrate);
  }

  /** The readable labels of a set of ids: the truthy ids' labels, read with an empty
      default, of which the empty ones are dropped. */
  function LabelsOf(tables: Tables, ids: set<TagId>): set<string> {
    set t | t in ids && t != 0 && LabelOf(tables, t) != "" :: LabelOf(tables, t)
  }

  /** A label is reported exactly when it is non-empty and some truthy id of the set carries it. */
  lemma LabelsOfMembers(tables: Tables, ids: set<TagId>)
    ensures forall l :: l in LabelsOf(tables, ids) <==> l != "" && exists t :: t in ids && t != 0 && t in tables.idToLabel && tables.idToLabel[t] == l
  {
  }

  /** Labels reported as added: those of the ids in the new set but not the current one. */
  function Added(tables: Tables, current: set<TagId>, next: set<TagId>): set<string> {
    LabelsOf(tables, next - current)
  }

  /** Labels reported as removed: those of the ids in the current set but not the new one. */
  function Removed(tables: Tables, current: set<TagId>, next: set<TagId>): set<string> {
    LabelsOf(tables, current - next)
  }

  /** No tag id carries the same label as another. */
  predicate UniqueLabels(tables: Tables) {
    forall a, b :: a in tables.idToLabel && b in tables.idToLabel && a != b ==> tables.idToLabel[a] != tables.idToLabel[b]
  }

  /** Every label the label table resolves is the label of the id it resolves to. */
  predicate Consistent(tables: Tables) {
    forall l :: l in tables.labelToId ==> tables.labelToId[l] in tables.idToLabel && tables.idToLabel[tables.labelToId[l]] == l
  }

  /** Foreign tags are never removed, and a foreign tag is only ever added by a provider. */
  lemma ForeignTagsKept(cfg: Config, tables: Tables, current: set<TagId>, flatrate: seq<Option<string>>, t: TagId)
    requires !IsManaged(cfg, tables, t)
    ensures t in current ==> t in Desired(cfg, tables, current, flatrate)
    ensures t in Desired(cfg, tables, current, flatrate) && t !in current ==> t in ProviderIds(cfg, tables, flatrate)
  {
  }

  /** A managed current tag survives only when an offered, configured provider re-adds it. */
  lemma ManagedTagsRederived(cfg: Config, tables: Tables, current: set<TagId>, flatrate: seq<Option<string>>, t: TagId)
    requires t in current && IsManaged(cfg, tables, t)
    ensures t in Desired(cfg, tables, current, flatrate) <==> t in ProviderIds(cfg, tables, flatrate)
  {
  }

  /** Recomputing from the new set with the same provider data gives the same set,
      so a second run finds nothing to update. */
  lemma DesiredIdempotent(cfg: Config, tables: Tables, current: set<TagId>, flatrate: seq<Option<string>>)
    ensures Desired(cfg, tables, Desired(cfg, tables, current, flatrate), flatrate) == Desired(cfg, tables, current, flatrate)
  {
    var once := Desired(cfg, tables, current, flatrate);
    var p := ProviderIds(cfg, tables, flatrate);
    assert Foreign(cfg, tables, once) + p == Foreign(cfg, tables, current) + p;
  }

  /** With unique labels, a label is never reported both as added and as removed. */
  lemma AddedRemovedDisjoint(tables: Tables, current: set<TagId>, next: set<TagId>)
    requires UniqueLabels(tables)
    ensures Added(tables, current, next) !! Removed(tables, current, next)
  {
    forall a, b | a in next - current && b in current - next && a in tables.idToLabel && b in tables.idToLabel
      ensures tables.idToLabel[a] != tables.idToLabel[b]
    {
      assert a != b;
    }
  }

  /** Equal sets report nothing added and nothing removed. */
  lemma NoChangeNoLabels(tables: Tables, current: set<TagId>)
    ensures Added(tables, current, current) == {} && Removed(tables, current, current) == {}
  {
    assert current - current == {};
  }

  /** An empty prefix makes every tag managed, since every string starts with "":
      the new set then holds the provider tags only, and every other tag is removed. */
  lemma EmptyPrefixReplacesAll(cfg: Config, tables: Tables, current: set<TagId>, flatrate: seq<Option<string>>)
    requires cfg.prefix == ""
    ensures Desired(cfg, tables, current, flatrate) == ProviderIds(cfg, tables, flatrate)
  {
    assert Foreign(cfg, tables, current) == {};
  }

  /** When the prefix has an upper-case letter, a tag the script created for a provider
      does not count as managed: it stays on the item even when no provider offers it any more. */
  lemma UppercasePrefixTagsPersist(cfg: Config, tables: Tables, current: set<TagId>, flatrate: seq<Option<string>>, name: string, t: TagId)
    requires Lower(cfg.prefix) != cfg.prefix
    requires t in current && t in tables.idToLabel && tables.idToLabel[t] == Label(cfg.prefix, name)
    ensures !IsManaged(cfg, tables, t)
    ensures t in Desired(cfg, tables, current, flatrate)
  {
    LabelStartsWithPrefixIff(cfg.prefix, name);
  }

  /** With a lower-case prefix and consistent tables every provider tag is managed, so the
      managed part of the new set is exactly the provider tags and the foreign part is untouched. */
  lemma LowercasePrefixSplitsExactly(cfg: Config, tables: Tables, current: set<TagId>, flatrate: seq<Option<string>>)
    requires Lower(cfg.prefix) == cfg.prefix && Consistent(tables)
    ensures forall t :: t in ProviderIds(cfg, tables, flatrate) ==> IsManaged(cfg, tables, t)
    ensures Foreign(cfg, tables, Desired(cfg, tables, current, flatrate)) == Foreign(cfg, tables, current)
  {
    ProviderIdsMembers(cfg, tables, flatrate);
    forall t | t in ProviderIds(cfg, tables, flatrate) ensures IsManaged(cfg, tables, t) {
      var i :| 0 <= i < |flatrate| && ProviderTag(cfg, tables, flatrate[i]) == Some(t);
      LabelStartsWithPrefixIff(cfg.prefix, flatrate[i].value);
    }
  }
}

=== FILE: service.dfy ===
/** `_process_service` of elsewherr.py: build the two lookup tables from the
    catalog's tag list, run the worker on every item, and hand each outcome to
    the aggregator. The workers run in a thread pool; the model takes the items
    in the order their workers complete, and `Aggregator.CompletionOrderIrrelevant`
    shows that the counters do not depend on that order. */
module Service {
  import opened Reconcile
  import opened Worker
  import opened Aggregator

  /** One entry of the catalog's tag list. */
  datatype TagRecord = TagRecord(id: TagId, text: string)

  /** `{tag["id"]: tag["label"] for tag in all_tags}`: a later entry overwrites an earlier one. */
  function IdToLabel(all: seq<TagRecord>): map<TagId, string>
    decreases |all|
  {
    if |all| == 0 then map[]
    else IdToLabel(all[..|all| - 1])[all[|all| - 1].id := all[|all| - 1].text]
  }

  /** `{tag["label"]: tag["id"] for tag in all_tags}`. */
  function LabelToId(all: seq<TagRecord>): map<string, TagId>
    decreases |all|
  {
    if |all| == 0 then map[]
    else LabelToId(all[..|all| - 1])[all[|all| - 1].text := all[|all| - 1].id]
  }

  function BuildTables(all: seq<TagRecord>): Tables {
    Tables(IdToLabel(all), LabelToId(all))
  }

  predicate DistinctIds(all: seq<TagRecord>) {
    forall i, j :: 0 <= i < j < |all| ==> all[i].id != all[j].id
  }

  predicate DistinctLabels(all: seq<TagRecord>) {
    forall i, j :: 0 <= i < j < |all| ==> all[i].text != all[j].text
  }

  /** The id table holds exactly the listed ids, and with distinct ids each maps to its own label. */
  lemma {:induction false} IdToLabelEntries(all: seq<TagRecord>)
    ensures forall t :: t in IdToLabel(all) <==> exists i :: 0 <= i < |all| && all[i].id == t
    ensures DistinctIds(all) ==> forall i :: 0 <= i < |all| ==> IdToLabel(all)[all[i].id] == all[i].text
    decreases |all|
  {
    if |all| > 0 {
      var init := all[..|all| - 1];
      IdToLabelEntries(init);
      assert forall i :: 0 <= i < |init| ==> init[i] == all[i];
    }
  }

  /** The label table holds exactly the listed labels, and with distinct labels each maps to its own id. */
  lemma {:induction false} LabelToIdEntries(all: seq<TagRecord>)
    ensures forall l :: l in LabelToId(all) <==> exists i :: 0 <= i < |all| && all[i].text == l
    ensures DistinctLabels(all) ==> forall i :: 0 <= i < |all| ==> LabelToId(all)[all[i].text] == all[i].id
    decreases |all|
  {
    if |all| > 0 {
      var init := all[..|all| - 1];
      LabelToIdEntries(init);
      assert forall i :: 0 <= i < |init| ==> init[i] == all[i];
    }
  }

  /** A catalog whose tags have distinct ids and distinct labels yields tables in which no
      two ids share a label and every label resolves to the id that carries it, which is
      what makes the added and removed labels of an item disjoint. */
  lemma TablesFromDistinctTags(all: seq<TagRecord>)
    requires DistinctIds(all) && DistinctLabels(all)
    ensures UniqueLabels(BuildTables(all)) && Consistent(BuildTables(all))
  {
    var tables := BuildTables(all);
    IdToLabelEntries(all);
    LabelToIdEntries(all);
    forall a, b | a in tables.idToLabel && b in tables.idToLabel && a != b
      ensures tables.idToLabel[a] != tables.idToLabel[b]
    {
      var i :| 0 <= i < |all| && all[i].id == a;
      var j :| 0 <= j < |all| && all[j].id == b;
      assert i != j;
      if i < j {
        assert all[i].text != all[j].text;
      } else {
        assert all[j].text != all[i].text;
      }
    }
    forall l | l in tables.labelToId
      ensures tables.labelToId[l] in tables.idToLabel && tables.idToLabel[tables.labelToId[l]] == l
    {
      var i :| 0 <= i < |all| && all[i].text == l;
      assert tables.labelToId[l] == all[i].id;
    }
  }

  /** A catalog item as the worker sees it, with what the outside world answers in each attempt. */
  datatype Item = Item(title: string, tags: set<TagId>, responses: Responses)

  /** What the worker makes of one item; the thread pool only decides when it runs. */
  type Runner = Item -> Outcome

  /** The worker run for one submitted item: the retry loop that restarts from the stored
      tags (`Worker.ProcessItem`), not the loop as written (`Worker.ProcessItemAsWritten`). */
  function RunOf(cfg: Config, tables: Tables, service: Catalog, item: Item): ItemRun {
    ProcessItem(Context(cfg, tables, service, item.title), item.tags, item.responses)
  }

  function RunnerOf(cfg: Config, tables: Tables, service: Catalog): Runner {
    item => RunOf(cfg, tables, service, item).outcome
  }

  /** Every outcome the worker produces is filed under the service it was given. */
  lemma RunnerKeepsService(cfg: Config, tables: Tables, service: Catalog)
    ensures forall item :: RunnerOf(cfg, tables, service)(item).service == service
  {
    forall item ensures RunnerOf(cfg, tables, service)(item).service == service {
      assert RunnerOf(cfg, tables, service)(item) == RunOf(cfg, tables, service, item).outcome;
    }
  }

  /** The outcomes of the items, in order. */
  function OutcomesOf(run: Runner, items: seq<Item>): (r: seq<Outcome>)
    ensures |r| == |items|
    decreases |items|
  {
    if |items| == 0 then [] else OutcomesOf(run, items[..|items| - 1]) + [run(items[|items| - 1])]
  }

  /** The i-th outcome is the run of the i-th item. */
  lemma {:induction false} OutcomesOfItems(run: Runner, items: seq<Item>)
    ensures forall i :: 0 <= i < |items| ==> OutcomesOf(run, items)[i] == run(items[i])
    decreases |items|
  {
    if |items| > 0 {
      var init := items[..|items| - 1];
      OutcomesOfItems(run, init);
      assert forall i :: 0 <= i < |init| ==> init[i] == items[i];
    }
  }

  /** How many outcomes are successes: the `processed_count` of the loop over completions. */
  function Successes(outcomes: seq<Outcome>): nat
    decreases |outcomes|
  {
    if |outcomes| == 0 then 0
    else Successes(outcomes[..|outcomes| - 1]) + (if outcomes[|outcomes| - 1].success then 1 else 0)
  }

  /** Tallying a sequence extended by one outcome adds that outcome's contribution. */
  lemma TallySnoc(outcomes: seq<Outcome>, o: Outcome, service: Catalog)
    ensures Tally(outcomes + [o], service) == Plus(Tally(outcomes, service), Contribution(o, service))
  {
    TallyAppend(outcomes, [o], service);
    assert Tally([o], service) == Contribution(o, service) by {
      assert [o][1..] == [];
      PlusZero(Contribution(o, service));
      PlusCommutative(Contribution(o, service), Zero);
    }
  }

  /** For outcomes all of one service, the tally's processed count is the number of successes. */
  lemma {:induction false} TallyProcessedIsSuccesses(outcomes: seq<Outcome>, service: Catalog)
    requires forall i :: 0 <= i < |outcomes| ==> outcomes[i].service == service
    ensures Tally(outcomes, service).processed == Successes(outcomes)
    decreases |outcomes|
  {
    if |outcomes| > 0 {
      var init := outcomes[..|outcomes| - 1];
      var o := outcomes[|outcomes| - 1];
      assert outcomes == init + [o];
      TallyProcessedIsSuccesses(init, service);
      TallySnoc(init, o, service);
    }
  }

  /** Outcomes of one service add nothing to the counters of another. */
  lemma {:induction false} TallyOtherService(outcomes: seq<Outcome>, service: Catalog, other: Catalog)
    requires forall i :: 0 <= i < |outcomes| ==> outcomes[i].service == service
    requires other != service
    ensures Tally(outcomes, other) == Zero
    decreases |outcomes|
  {
    if |outcomes| > 0 {
      var rest := outcomes[1..];
      assert forall i :: 0 <= i < |rest| ==> rest[i].service == service by {
        assert forall i :: 0 <= i < |rest| ==> rest[i] == outcomes[i + 1];
      }
      TallyOtherService(rest, service, other);
      assert Contribution(outcomes[0], other) == Zero;
      PlusZero(Zero);
    }
  }

  /** The counters a fold over the outcomes of one service leaves: one change-log entry
      per outcome, one processed per success, one error per failure, updates only among
      the successes, and the other service untouched. */
  lemma FoldCounters(log: Log, outcomes: seq<Outcome>, service: Catalog)
    requires forall i :: 0 <= i < |outcomes| ==> outcomes[i].service == service
    ensures |RecordAll(log, outcomes).changes| == |log.changes| + |outcomes|
    ensures StatsOf(RecordAll(log, outcomes), service).processed == StatsOf(log, service).processed + Successes(outcomes)
    ensures StatsOf(RecordAll(log, outcomes), service).processed + StatsOf(RecordAll(log, outcomes), service).errors
      == StatsOf(log, service).processed + StatsOf(log, service).errors + |outcomes|
    ensures StatsOf(RecordAll(log, outcomes), service).updated <= StatsOf(log, service).updated + Successes(outcomes)
    ensures forall other :: other != service ==> StatsOf(RecordAll(log, outcomes), other) == StatsOf(log, other)
  {
    RecordAllCounts(log, outcomes, service);
    TallyCounts(outcomes, service);
    TallyProcessedIsSuccesses(outcomes, service);
    forall other | other != service
      ensures StatsOf(RecordAll(log, outcomes), other) == StatsOf(log, other)
    {
      RecordAllCounts(log, outcomes, other);
      TallyOtherService(outcomes, service, other);
      PlusZero(StatsOf(log, other));
      PlusCommutative(Zero, StatsOf(log, other));
    }
  }

  /** The aggregator's log after the first `i` items have been recorded. */
  function Collected(run: Runner, items: seq<Item>, i: nat, log: Log): Log
    requires i <= |items|
  {
    RecordAll(log, OutcomesOf(run, items[..i]))
  }

  /** The successes among the first `i` items. */
  function Counted(run: Runner, items: seq<Item>, i: nat): nat
    requires i <= |items|
  {
    Successes(OutcomesOf(run, items[..i]))
  }

  /** Recording one more item's outcome extends the fold and the success count by that outcome. */
  lemma CollectStep(run: Runner, items: seq<Item>, i: nat, log: Log)
    requires i < |items|
    ensures Collected(run, items, i + 1, log) == Record(Collected(run, items, i, log), run(items[i]))
    ensures Counted(run, items, i + 1) == Counted(run, items, i) + (if run(items[i]).success then 1 else 0)
  {
    var prefix := items[..i + 1];
    assert prefix[..i] == items[..i] && prefix[i] == items[i];
    var outcomes := OutcomesOf(run, prefix);
    assert outcomes == OutcomesOf(run, items[..i]) + [run(items[i])];
    assert outcomes[..|outcomes| - 1] == OutcomesOf(run, items[..i]);
    RecordAllAppend(log, OutcomesOf(run, items[..i]), run(items[i]));
  }

  /** The loop over completed workers: each outcome is handed to the aggregator and
      `processed_count` goes up for each success. */
  method CollectOutcomes(run: Runner, items: seq<Item>, log: Log) returns (processed: nat, next: Log)
    ensures next == RecordAll(log, OutcomesOf(run, items))
    ensures processed == Successes(OutcomesOf(run, items))
  {
    processed := 0;
    next := log;
    var i := 0;
    while i < |items|
      invariant 0 <= i <= |items|
      invariant next == Collected(run, items, i, log)
      invariant processed == Counted(run, items, i)
    {
      var outcome := run(items[i]);
      CollectStep(run, items, i, log);
      next := Record(next, outcome);
      if outcome.success {
        processed := processed + 1;
      }
      i := i + 1;
    }
    assert items[..|items|] == items;
  }

  /** `_process_service` after the media list and the tag list have been fetched: every
      item's outcome is recorded once, `processed` counts the successes, and only the
      counters of this service change: by one processed or one error per item. */
  method ProcessService(cfg: Config, service: Catalog, catalog: seq<TagRecord>, items: seq<Item>, log: Log)
    returns (processed: nat, next: Log)
    ensures var outcomes := OutcomesOf(RunnerOf(cfg, BuildTables(catalog), service), items);
      && next == RecordAll(log, outcomes)
      && processed == Successes(outcomes)
    ensures |next.changes| == |log.changes| + |items|
    ensures StatsOf(next, service).processed == StatsOf(log, service).processed + processed
    ensures StatsOf(next, service).processed + StatsOf(next, service).errors
      == StatsOf(log, service).processed + StatsOf(log, service).errors + |items|
    ensures StatsOf(next, service).updated <= StatsOf(log, service).updated + processed
    ensures forall other :: other != service ==> StatsOf(next, other) == StatsOf(log, other)
  {
    var run := RunnerOf(cfg, BuildTables(catalog), service);
    processed, next := CollectOutcomes(run, items, log);
    OutcomesOfItems(run, items);
    RunnerKeepsService(cfg, BuildTables(catalog), service);
    FoldCounters(log, OutcomesOf(run, items), service);
  }
}

=== FILE: sonarr_nfo.dfy ===
/** sonarr_tags_to_jellyfin_nfo.py: only the `<tag>` elements whose text starts with
    the prefix belong to the sync. When their texts differ from the series' prefixed
    Sonarr labels, they are removed and those labels are appended, sorted; every other
    child of the NFO root stays where it was. */
module SonarrNfo {
  import opened Strings
  import opened Reconcile
  import opened Nfo

  /** A `<tag>` the sync owns: it has text and the text starts with the prefix. */
  predicate Managed(n: Node, prefix: string) {
    HasText(n) && StartsWith(n.text.value, prefix)
  }

  /** The texts of the managed tags, as a set: the NFO's tag texts that start with the prefix. */
  function PrefixedTexts(nodes: seq<Node>, prefix: string): set<string> {
    SyncLabels(TextSet(nodes), prefix)
  }

  /** What is left after the managed tags are removed. */
  function Unmanaged(nodes: seq<Node>, prefix: string): (r: seq<Node>)
    ensures forall i :: 0 <= i < |r| ==> !Managed(r[i], prefix)
    decreases |nodes|
  {
    if |nodes| == 0 then []
    else (if Managed(nodes[0], prefix) then [] else [nodes[0]]) + Unmanaged(nodes[1..], prefix)
  }

  /** The labels to sync: the series' prefixed Sonarr labels. */
  function Wanted(prefix: string, idToLabel: map<TagId, string>, ids: seq<TagId>): set<string> {
    SyncLabels(CatalogLabels(ids, idToLabel), prefix)
  }

  /** The sync of one series' NFO: no write when the managed texts already are the wanted
      labels; otherwise the unmanaged children stay and the wanted labels follow, sorted. */
  function SyncNfo(prefix: string, idToLabel: map<TagId, string>, ids: seq<TagId>, nodes: seq<Node>): (r: Sync)
    ensures r.NoChange? <==> PrefixedTexts(nodes, prefix) == Wanted(prefix, idToLabel, ids)
  {
    if PrefixedTexts(nodes, prefix) == Wanted(prefix, idToLabel, ids) then NoChange
    else Rewrite(Unmanaged(nodes, prefix) + Emit(SortDedup(WithPrefix(LabelList(ids, idToLabel), prefix))))
  }

  /** Removal keeps the survivors in their original order: filtering a concatenation
      concatenates the filtered parts. */
  lemma {:induction false} UnmanagedAppend(a: seq<Node>, b: seq<Node>, prefix: string)
    ensures Unmanaged(a + b, prefix) == Unmanaged(a, prefix) + Unmanaged(b, prefix)
    decreases |a|
  {
    if |a| == 0 {
      assert a + b == b;
    } else {
      assert (a + b)[0] == a[0];
      assert (a + b)[1..] == a[1..] + b;
      UnmanagedAppend(a[1..], b, prefix);
    }
  }

  /** Removal drops every managed tag and keeps every other child as often as it occurs:
      textless tags and tags without the prefix included. */
  lemma {:induction false} UnmanagedCounts(nodes: seq<Node>, prefix: string)
    ensures forall n :: multiset(Unmanaged(nodes, prefix))[n] == if Managed(n, prefix) then 0 else multiset(nodes)[n]
    decreases |nodes|
  {
    if |nodes| > 0 {
      UnmanagedCounts(nodes[1..], prefix);
      assert nodes == [nodes[0]] + nodes[1..];
      var head := if Managed(nodes[0], prefix) then [] else [nodes[0]];
      assert multiset(nodes) == multiset([nodes[0]]) + multiset(nodes[1..]);
      assert multiset(Unmanaged(nodes, prefix)) == multiset(head) + multiset(Unmanaged(nodes[1..], prefix));
    }
  }

  lemma PrefixedTextsAppend(a: seq<Node>, b: seq<Node>, prefix: string)
    ensures PrefixedTexts(a + b, prefix) == PrefixedTexts(a, prefix) + PrefixedTexts(b, prefix)
  {
    TextsAppend(a, b);
    assert forall y :: y in Texts(a + b) <==> y in Texts(a) || y in Texts(b);
  }

  lemma NoPrefixedTextsLeft(nodes: seq<Node>, prefix: string)
    ensures PrefixedTexts(Unmanaged(nodes, prefix), prefix) == {}
  {
    var r := Unmanaged(nodes, prefix);
    forall y | y in TextSet(r) ensures !StartsWith(y, prefix) {
      var n :| n in r && HasText(n) && n.text.value == y;
      var i :| 0 <= i < |r| && r[i] == n;
    }
  }

  /** The appended tags are all managed, and their texts are the labels. */
  lemma EmittedPrefixedTexts(labels: seq<string>, prefix: string)
    requires forall i :: 0 <= i < |labels| ==> labels[i] != "" && StartsWith(labels[i], prefix)
    ensures PrefixedTexts(Emit(labels), prefix) == set l | l in labels
  {
    TextsOfEmit(labels);
    assert forall y :: y in TextSet(Emit(labels)) <==> y in labels;
    forall y | y in labels ensures StartsWith(y, prefix) {
      var i :| 0 <= i < |labels| && labels[i] == y;
    }
  }

  /** The labels appended on a rewrite: the wanted set, sorted, each non-empty and prefixed. */
  lemma AppendedLabels(prefix: string, idToLabel: map<TagId, string>, ids: seq<TagId>)
    ensures var labels := SortDedup(WithPrefix(LabelList(ids, idToLabel), prefix));
      && StrictlySorted(labels)
      && (forall y :: y in labels <==> y in Wanted(prefix, idToLabel, ids))
      && (forall i :: 0 <= i < |labels| ==> labels[i] != "" && StartsWith(labels[i], prefix))
  {
    var labels := SortDedup(WithPrefix(LabelList(ids, idToLabel), prefix));
    forall i | 0 <= i < |labels| ensures labels[i] != "" && StartsWith(labels[i], prefix) {
      assert labels[i] in labels;
      var list := LabelList(ids, idToLabel);
      assert labels[i] in list;
      var j :| 0 <= j < |list| && list[j] == labels[i];
    }
  }

  /** A rewrite keeps the unmanaged children, in order, as its first part and appends the
      wanted labels sorted after them; its managed texts then are exactly the wanted labels. */
  lemma RewriteContents(prefix: string, idToLabel: map<TagId, string>, ids: seq<TagId>, nodes: seq<Node>)
    requires SyncNfo(prefix, idToLabel, ids, nodes).Rewrite?
    ensures var out := SyncNfo(prefix, idToLabel, ids, nodes).nodes;
      var kept := Unmanaged(nodes, prefix);
      && out[..|kept|] == kept
      && StrictlySorted(Texts(out[|kept|..]))
      && (forall i :: |kept| <= i < |out| ==> Managed(out[i], prefix))
      && PrefixedTexts(out, prefix) == Wanted(prefix, idToLabel, ids)
  {
    var labels := SortDedup(WithPrefix(LabelList(ids, idToLabel), prefix));
    var kept := Unmanaged(nodes, prefix);
    var out := kept + Emit(labels);
    AppendedLabels(prefix, idToLabel, ids);
    assert out[..|kept|] == kept && out[|kept|..] == Emit(labels);
    TextsOfEmit(labels);
    PrefixedTextsAppend(kept, Emit(labels), prefix);
    NoPrefixedTextsLeft(nodes, prefix);
    EmittedPrefixedTexts(labels, prefix);
  }

  /** Right after a sync, a second sync with the same Sonarr tags writes nothing. */
  lemma SecondSyncNoChange(prefix: string, idToLabel: map<TagId, string>, ids: seq<TagId>, nodes: seq<Node>)
    ensures var first := SyncNfo(prefix, idToLabel, ids, nodes);
      var after := if first.Rewrite? then first.nodes else nodes;
      SyncNfo(prefix, idToLabel, ids, after) == NoChange
  {
    if SyncNfo(prefix, idToLabel, ids, nodes).Rewrite? {
      RewriteContents(prefix, idToLabel, ids, nodes);
    }
  }

  /** One series, by the shared skip rule. */
  function SyncSeries(prefix: string, idToLabel: map<TagId, string>, series: MediaItem): ItemResult {
    SyncItem(series, (ids, nodes) => SyncNfo(prefix, idToLabel, ids, nodes))
  }

  /** The script's loop over the series. */
  method SyncAllSeries(prefix: string, idToLabel: map<TagId, string>, seriesList: seq<MediaItem>) returns (results: seq<ItemResult>, updated: nat)
    ensures |results| == |seriesList|
    ensures forall i :: 0 <= i < |seriesList| ==> results[i] == SyncSeries(prefix, idToLabel, seriesList[i])
    ensures updated == Rewrites(results) <= |seriesList|
  {
    results, updated := SyncAll(seriesList, series => SyncSeries(prefix, idToLabel, series));
  }
}

=== FILE: strings.dfy ===
/** String helpers shared by the three scripts: Python's `startswith`,
    ASCII character classes, `lower()`, and the code-point lexicographic
    order that Python's `sorted` uses on `str`. */
module Strings {

  /** Python's `s.startswith(prefix)`. */
  predicate StartsWith(s: string, prefix: string) {
    prefix <= s
  }

  predicate IsUpper(c: char) {
    'A' <= c <= 'Z'
  }

  /** The character class `[A-Za-z0-9]`. */
  predicate IsAsciiAlnum(c: char) {
    'A' <= c <= 'Z' || 'a' <= c <= 'z' || '0' <= c <= '9'
  }

  /** The character class `[a-z0-9]`. */
  predicate IsLowerAlnum(c: char) {
    'a' <= c <= 'z' || '0' <= c <= '9'
  }

  function LowerChar(c: char): (r: char)
    ensures !IsUpper(r)
    ensures IsAsciiAlnum(c) ==> IsLowerAlnum(r)
    ensures !IsUpper(c) ==> r == c
  {
    if IsUpper(c) then (c as int + 32) as char else c
  }

  /** `s.lower()` restricted to ASCII letters. */
  function Lower(s: string): (r: string)
    ensures |r| == |s|
    ensures forall i :: 0 <= i < |s| ==> r[i] == LowerChar(s[i])
  {
    seq(|s|, i requires 0 <= i < |s| => LowerChar(s[i]))
  }

  lemma LowerAppend(a: string, b: string)
    ensures Lower(a + b) == Lower(a) + Lower(b)
  {
  }

  /** A string is left unchanged by `Lower` exactly when it has no upper-case ASCII letter. */
  lemma LowerFixedIff(s: string)
    ensures Lower(s) == s <==> forall i :: 0 <= i < |s| ==> !IsUpper(s[i])
  {
    if Lower(s) == s {
      forall i | 0 <= i < |s| ensures !IsUpper(s[i]) {
        assert LowerChar(s[i]) == s[i];
      }
    }
  }

  /** Python's `a < b` on `str`: lexicographic by code point, a proper prefix first. */
  predicate Less(a: string, b: string)
    decreases |a|
  {
    |b| > 0 && (|a| == 0 || a[0] < b[0] || (a[0] == b[0] && Less(a[1..], b[1..])))
  }

  lemma {:induction false} LessIrreflexive(a: string)
    ensures !Less(a, a)
    decreases |a|
  {
    if |a| > 0 {
      LessIrreflexive(a[1..]);
    }
  }

  lemma {:induction false} LessTransitive(a: string, b: string, c: string)
    requires Less(a, b) && Less(b, c)
    ensures Less(a, c)
    decreases |a|
  {
    if |a| > 0 && a[0] == b[0] && b[0] == c[0] {
      LessTransitive(a[1..], b[1..], c[1..]);
    }
  }

  lemma {:induction false} LessTotal(a: string, b: string)
    requires a != b
    ensures Less(a, b) || Less(b, a)
    decreases |a|
  {
    if |a| > 0 && |b| > 0 && a[0] == b[0] {
      assert a == [a[0]] + a[1..] && b == [b[0]] + b[1..];
      LessTotal(a[1..], b[1..]);
    }
  }

  lemma LessAsymmetric(a: string, b: string)
    requires Less(a, b)
    ensures !Less(b, a)
  {
    if Less(b, a) {
      LessTransitive(a, b, a);
      LessIrreflexive(a);
    }
  }

  /** Strictly increasing, hence also free of duplicates. */
  predicate StrictlySorted(xs: seq<string>) {
    forall i, j :: 0 <= i < j < |xs| ==> Less(xs[i], xs[j])
  }

  /** Inserts `x` into a strictly sorted sequence, keeping it strictly sorted. */
  function Insert(xs: seq<string>, x: string): (r: seq<string>)
    requires StrictlySorted(xs)
    ensures StrictlySorted(r)
    ensures forall y :: y in r <==> y in xs || y == x
    decreases |xs|
  {
    if |xs| == 0 then [x]
    else if x == xs[0] then xs
    else if Less(x, xs[0]) then
      assert forall j :: 0 < j < |xs| ==> Less(x, xs[j]) by {
        forall j | 0 < j < |xs| ensures Less(x, xs[j]) {
          LessTransitive(x, xs[0], xs[j]);
        }
      }
      [x] + xs
    else
      LessTotal(x, xs[0]);
      var rest := Insert(xs[1..], x);
      assert forall y :: y in rest ==> Less(xs[0], y);
      [xs[0]] + rest
  }

  /** `sorted(...)` of the set of elements of `xs`: one copy of each, in increasing order. */
  function SortDedup(xs: seq<string>): (r: seq<string>)
    ensures StrictlySorted(r)
    ensures forall y :: y in r <==> y in xs
    decreases |xs|
  {
    if |xs| == 0 then [] else Insert(SortDedup(xs[1..]), xs[0])
  }

  /** A strictly sorted sequence is determined by its set of elements, so the order
      in which a set happens to be enumerated does not affect what `sorted` emits. */
  lemma {:induction false} SortedUnique(a: seq<string>, b: seq<string>)
    requires StrictlySorted(a) && StrictlySorted(b)
    requires forall y :: y in a <==> y in b
    ensures a == b
    decreases |a|
  {
    if |a| > 0 || |b| > 0 {
      assert |a| > 0 && |b| > 0 by {
        if |a| > 0 {
          assert a[0] in a;
        }
        if |b| > 0 {
          assert b[0] in b;
        }
      }
      assert a[0] in b && b[0] in a;
      if a[0] != b[0] {
        var i :| 0 <= i < |a| && a[i] == b[0];
        var j :| 0 <= j < |b| && b[j] == a[0];
        assert Less(a[0], b[0]) by {
          assert i > 0;
        }
        assert Less(b[0], a[0]) by {
          assert j > 0;
        }
        LessAsymmetric(a[0], b[0]);
      }
      forall y ensures y in a[1..] <==> y in b[1..] {
        if y in a[1..] {
          var k :| 1 <= k < |a| && a[k] == y;
          assert Less(a[0], y);
          LessIrreflexive(y);
          assert y in b && y != b[0];
          var m :| 0 <= m < |b| && b[m] == y;
          assert b[1..][m - 1] == y;
        }
        if y in b[1..] {
          var k :| 1 <= k < |b| && b[k] == y;
          assert Less(b[0], y);
          LessIrreflexive(y);
          assert y in a && y != a[0];
          var m :| 0 <= m < |a| && a[m] == y;
          assert a[1..][m - 1] == y;
        }
      }
      SortedUnique(a[1..], b[1..]);
      assert a == [a[0]] + a[1..] && b == [b[0]] + b[1..];
    }
  }
}

=== FILE: tag_codec.dfy ===
/** The tag codec of elsewherr.py: a provider name becomes a catalog tag
    label by dropping every character outside `[A-Za-z0-9]`, putting the
    configured prefix in front, and lower-casing the whole string. */
module TagCodec {
  import opened Strings

  /** `re.sub("[^A-Za-z0-9]+", "", name)`: keeps the ASCII letters and digits, in order. */
  function Sanitize(name: string): (r: string)
    ensures |r| <= |name|
    ensures forall i :: 0 <= i < |r| ==> IsAsciiAlnum(r[i])
    decreases |name|
  {
    if |name| == 0 then []
    else (if IsAsciiAlnum(name[0]) then [name[0]] else []) + Sanitize(name[1..])
  }

  /** Every ASCII letter and digit of the name is kept as often as it occurs; nothing else is. */
  lemma {:induction false} SanitizeCounts(name: string)
    ensures forall c :: multiset(Sanitize(name))[c] == if IsAsciiAlnum(c) then multiset(name)[c] else 0
    decreases |name|
  {
    if |name| > 0 {
      SanitizeCounts(name[1..]);
      assert name == [name[0]] + name[1..];
      var head := if IsAsciiAlnum(name[0]) then [name[0]] else [];
      assert multiset(name) == multiset([name[0]]) + multiset(name[1..]);
      assert multiset(Sanitize(name)) == multiset(head) + multiset(Sanitize(name[1..]));
    }
  }

  /** The label `_get_tag_label_for_provider` derives for a provider name. */
  function Label(prefix: string, name: string): (r: string)
    ensures r == Lower(prefix) + Lower(Sanitize(name))
    ensures |r| == |prefix| + |Sanitize(name)|
    ensures forall i :: |prefix| <= i < |r| ==> IsLowerAlnum(r[i])
  {
    LowerAppend(prefix, Sanitize(name));
    Lower(prefix + Sanitize(name))
  }

  /** A name made only of ASCII letters and digits passes through `Sanitize` unchanged,
      and every other name loses at least one character. */
  lemma {:induction false} SanitizeFixedIff(name: string)
    ensures Sanitize(name) == name <==> forall i :: 0 <= i < |name| ==> IsAsciiAlnum(name[i])
    decreases |name|
  {
    if |name| > 0 {
      SanitizeFixedIff(name[1..]);
      if !IsAsciiAlnum(name[0]) {
        assert |Sanitize(name)| < |name|;
      } else if Sanitize(name) == name {
        assert Sanitize(name[1..]) == name[1..];
      }
    }
  }

  /** Sanitizing works character by character: a single character is kept exactly
      when it is an ASCII letter or digit. */
  lemma SanitizeChar(c: char)
    ensures Sanitize([c]) == if IsAsciiAlnum(c) then [c] else []
  {
    assert [c][1..] == [];
  }

  /** Sanitizing a concatenation concatenates the sanitized parts, so the kept
      characters stay in the order of the name; with `SanitizeChar` this determines
      `Sanitize` on every name. */
  lemma {:induction false} SanitizeAppend(a: string, b: string)
    ensures Sanitize(a + b) == Sanitize(a) + Sanitize(b)
    decreases |a|
  {
    if |a| == 0 {
      assert a + b == b;
    } else {
      assert (a + b)[0] == a[0];
      assert (a + b)[1..] == a[1..] + b;
      SanitizeAppend(a[1..], b);
    }
  }

  /** Sanitizing twice is the same as sanitizing once. */
  lemma SanitizeIdempotent(name: string)
    ensures Sanitize(Sanitize(name)) == Sanitize(name)
  {
    SanitizeFixedIff(Sanitize(name));
  }

  /** The label starts with the configured prefix exactly when the prefix has no
      upper-case letter: `lower()` is applied to the prefix as well, so a prefix
      such as "SVCP-" yields labels ("svcp-netflix") that do not start with it. */
  lemma LabelStartsWithPrefixIff(prefix: string, name: string)
    ensures StartsWith(Label(prefix, name), prefix) <==> Lower(prefix) == prefix
  {
    var r := Label(prefix, name);
    assert r[..|prefix|] == Lower(prefix);
    LowerFixedIff(prefix);
  }

  /** Two provider names share a label exactly when their sanitized, lower-cased
      forms agree; the codec does not prevent such collisions. */
  lemma LabelCollisionIff(prefix: string, a: string, b: string)
    ensures Label(prefix, a) == Label(prefix, b) <==> Lower(Sanitize(a)) == Lower(Sanitize(b))
  {
    if Label(prefix, a) == Label(prefix, b) {
      assert Lower(Sanitize(a)) == Label(prefix, a)[|prefix|..];
      assert Lower(Sanitize(b)) == Label(prefix, b)[|prefix|..];
    }
  }
}

=== FILE: worker.dfy ===
/** The per-item worker of elsewherr.py (`_process_single_item`): up to
    `MaxRetries` attempts, each of which looks up the TMDB id, reads the
    flatrate providers, and writes the new tag set when it differs. What the
    network answers in each attempt is an input; waiting between attempts
    is not modelled. */
module Worker {
  import opened Wrappers
  import opened Reconcile
  import opened TagCodec

  const MaxRetries: nat := 3

  /** Why an item failed; `Message` gives the text written to the error log. */
  datatype ErrorReason = TmdbIdNotFound | NetworkAfterRetries | UnexpectedError {
    function Message(): string {
      match this
      case TmdbIdNotFound => "TMDB ID not found."
      // the count is MaxRetries, formatted into the message
      case NetworkAfterRetries => "Network error after 3 retries."
      case UnexpectedError => "Unexpected error occurred."
    }
  }

  /** `RequestException` versus any other exception. */
  datatype Failure = NetworkError | OtherError

  /** What the catalog's update call does when it is made: it goes through, or it raises
      before the catalog has applied the write. */
  datatype UpdateResult = UpdateOk | UpdateRaises(failure: Failure)

  /** What the outside world answers during one attempt: no TMDB id, an exception while
      looking the title up, or the region's flatrate provider names (an entry without a
      name is `None`) together with what the update call would do. */
  datatype Response =
    | NoTmdbId
    | Raises(failure: Failure)
    | Providers(flatrate: seq<Option<string>>, update: UpdateResult)

  /** Whether an attempt given `response` can end in the exception `f`: the lookup raised
      it, or the update call would. */
  predicate RaisesWith(response: Response, f: Failure) {
    response == Raises(f) || (response.Providers? && response.update == UpdateRaises(f))
  }

  /** The answers for each of the attempts the loop may make; unused ones are ignored. */
  type Responses = s: seq<Response> | |s| == MaxRetries witness [NoTmdbId, NoTmdbId, NoTmdbId]

  /** One recorded outcome: a success with the changed labels, or an error with its reason. */
  datatype Outcome = Outcome(service: Catalog, title: string, added: set<string>, removed: set<string>, success: bool, reason: Option<ErrorReason>)

  /** The two catalog services a run processes, under the names used in the logs. */
  datatype Catalog = Radarr | Sonarr {
    function Name(): string {
      match this
      case Radarr => "Radarr"
      case Sonarr => "Sonarr"
    }
  }

  /** What the worker knows about the item and the run. */
  datatype Context = Context(cfg: Config, tables: Tables, service: Catalog, title: string)

  function ErrorOutcome(ctx: Context, reason: ErrorReason): Outcome {
    Outcome(ctx.service, ctx.title, {}, {}, false, Some(reason))
  }

  /** How one pass of the `try` body ends: it returns, with the tag set it wrote when its
      update call went through, or an exception escapes it, with the tag set of an update
      call that raised and the item's local tag list as the pass left it. */
  datatype Step =
    | Finished(outcome: Outcome, written: Option<set<TagId>>)
    | Raised(failure: Failure, attempted: Option<set<TagId>>, local: set<TagId>)
  {
    /** Whether the pass issued an update call. */
    predicate Called() {
      if Finished? then written.Some? else attempted.Some?
    }
  }

  /** One pass of the `try` body against the item's local tag set. */
  function RunAttempt(ctx: Context, local: set<TagId>, response: Response): (s: Step)
    ensures s.Finished? ==> s.outcome.service == ctx.service && s.outcome.title == ctx.title
    ensures s.Finished? ==> (s.outcome.success <==> s.outcome.reason.None?)
    ensures s.Finished? && !s.outcome.success ==> s.outcome == ErrorOutcome(ctx, TmdbIdNotFound) && response.NoTmdbId?
    ensures s.Finished? && s.written.Some? ==> s.outcome.success
    ensures s.Raised? ==> s.local == (if s.attempted.Some? then s.attempted.value else local)
    ensures s.Raised? ==> RaisesWith(response, s.failure)
  {
    match response
    case NoTmdbId => Finished(ErrorOutcome(ctx, TmdbIdNotFound), None)
    case Raises(f) => Raised(f, None, local)
    case Providers(flatrate, update) =>
      var next := Desired(ctx.cfg, ctx.tables, local, flatrate);
      if next == local then
        Finished(Outcome(ctx.service, ctx.title, {}, {}, true, None), None)
      else
        match update
        case UpdateOk =>
          var o := Outcome(ctx.service, ctx.title, Added(ctx.tables, local, next), Removed(ctx.tables, local, next), true, None);
          Finished(o, Some(next))
        case UpdateRaises(f) =>
          // item["tags"] has already been replaced by the new list when the call raises
          Raised(f, Some(next), next)
  }

  /** An attempt that obtains the providers issues an update call exactly when the new set
      differs from the local one, with that set, and a success reports the labels of the
      two set differences. */
  lemma AttemptUpdatesIffChanged(ctx: Context, local: set<TagId>, response: Response)
    ensures var s := RunAttempt(ctx, local, response);
      && (s.Called() <==> response.Providers? && Desired(ctx.cfg, ctx.tables, local, response.flatrate) != local)
      && (s.Finished? && s.written.Some? ==> s.written.value == Desired(ctx.cfg, ctx.tables, local, response.flatrate))
      && (s.Raised? && s.attempted.Some? ==> s.attempted.value == Desired(ctx.cfg, ctx.tables, local, response.flatrate))
      && (s.Finished? && s.outcome.success ==>
           && response.Providers?
           && s.outcome.added == Added(ctx.tables, local, Desired(ctx.cfg, ctx.tables, local, response.flatrate))
           && s.outcome.removed == Removed(ctx.tables, local, Desired(ctx.cfg, ctx.tables, local, response.flatrate)))
  {
    if response.Providers? && Desired(ctx.cfg, ctx.tables, local, response.flatrate) == local {
      NoChangeNoLabels(ctx.tables, local);
    }
  }

  /** The body of the loop as the loop sees it: a local tag set and a response in, a step out. */
  type Pass = (set<TagId>, Response) -> Step

  function PassOf(ctx: Context): Pass {
    (local: set<TagId>, response: Response) => RunAttempt(ctx, local, response)
  }

  /** Which tag set a retry starts from: the item's local list, which the failed attempt
      may have overwritten (as written), or the tags the catalog still stores (corrected). */
  datatype RetryBase = MutatedCopy | StoredTags

  /** The result of processing one item: the one recorded outcome, how many attempts were
      made, how many update calls were issued and how many of them went through, the tags
      the catalog stores afterwards, and the local tag set the last attempt started from. */
  datatype ItemRun = ItemRun(outcome: Outcome, attempts: nat, calls: nat, writes: nat, stored: set<TagId>, from: set<TagId>)

  /** The update calls issued so far, after a pass that ended as `step`. */
  function Issued(calls: nat, step: Step): nat {
    calls + (if step.Called() then 1 else 0)
  }

  /** The tag set the next attempt starts from after a pass that raised. */
  function RetryFrom(base: RetryBase, step: Step, stored: set<TagId>): set<TagId>
    requires step.Raised?
  {
    if base == MutatedCopy then step.local else stored
  }

  /** The retry loop from attempt `attempt` on. A network error before the last attempt
      starts the next attempt; any other ending of a pass ends the loop, and a pass that
      raised is recorded as an error. The loop's result is that of its last attempt. */
  function Retry(ctx: Context, pass: Pass, base: RetryBase, responses: Responses, attempt: nat, local: set<TagId>, stored: set<TagId>, calls: nat, writes: nat): (r: ItemRun)
    requires attempt < MaxRetries
    ensures attempt < r.attempts <= MaxRetries
    ensures calls <= r.calls <= calls + (r.attempts - attempt)
    ensures var last := pass(r.from, responses[r.attempts - 1]);
      && (last.Finished? ==> r.outcome == last.outcome && r.stored == last.written.GetOr(stored))
      && (last.Raised? ==> r.stored == stored && r.outcome == ErrorOutcome(ctx, if last.failure == NetworkError then NetworkAfterRetries else UnexpectedError))
      && (last.Raised? && last.failure == NetworkError ==> r.attempts == MaxRetries)
    ensures r.stored != stored ==> r.calls > calls
    ensures base == StoredTags && local == stored ==> r.from == stored
    decreases MaxRetries - attempt
  {
    var step := pass(local, responses[attempt]);
    var issued := Issued(calls, step);
    match step
    case Finished(o, written) =>
      ItemRun(o, attempt + 1, issued, writes + (if written.Some? then 1 else 0), written.GetOr(stored), local)
    case Raised(f, _, after) =>
      // a call that raised wrote nothing, so `writes` and `stored` carry over
      if f == NetworkError && attempt < MaxRetries - 1 then
        Retry(ctx, pass, base, responses, attempt + 1, RetryFrom(base, step, stored), stored, issued, writes)
      else
        var reason := if f == NetworkError then NetworkAfterRetries else UnexpectedError;
        ItemRun(ErrorOutcome(ctx, reason), attempt + 1, issued, writes, stored, local)
  }

  /** A pass that raised a network error before the last attempt hands over to the next attempt. */
  lemma RetryUnfolds(ctx: Context, pass: Pass, base: RetryBase, responses: Responses, attempt: nat, local: set<TagId>, stored: set<TagId>, calls: nat, writes: nat)
    requires attempt < MaxRetries - 1
    requires pass(local, responses[attempt]).Raised? && pass(local, responses[attempt]).failure == NetworkError
    ensures var step := pass(local, responses[attempt]);
      Retry(ctx, pass, base, responses, attempt, local, stored, calls, writes)
        == Retry(ctx, pass, base, responses, attempt + 1, RetryFrom(base, step, stored), stored, Issued(calls, step), writes)
  {
  }

  /** Whether the attempt that ended the run had its update call go through. */
  predicate LastWrote(pass: Pass, responses: Responses, r: ItemRun)
    requires 1 <= r.attempts <= MaxRetries
  {
    var last := pass(r.from, responses[r.attempts - 1]);
    last.Finished? && last.written.Some?
  }

  /** Only the last attempt's update call can go through: a call that raised wrote
      nothing, and a call that went through ended the loop. */
  lemma {:induction false} RetryWrites(ctx: Context, pass: Pass, base: RetryBase, responses: Responses, attempt: nat, local: set<TagId>, stored: set<TagId>, calls: nat, writes: nat)
    requires attempt < MaxRetries
    ensures var r := Retry(ctx, pass, base, responses, attempt, local, stored, calls, writes);
      && r.writes == writes + (if LastWrote(pass, responses, r) then 1 else 0)
      && r.writes - writes <= r.calls - calls
    decreases MaxRetries - attempt, 1
  {
    var step := pass(local, responses[attempt]);
    if step.Raised? && step.failure == NetworkError && attempt < MaxRetries - 1 {
      RetryWritesRetried(ctx, pass, base, responses, attempt, local, stored, calls, writes);
    } else {
      RetryWritesLast(ctx, pass, base, responses, attempt, local, stored, calls, writes);
    }
  }

  /** The attempt that ends the loop writes exactly when its update call goes through. */
  lemma RetryWritesLast(ctx: Context, pass: Pass, base: RetryBase, responses: Responses, attempt: nat, local: set<TagId>, stored: set<TagId>, calls: nat, writes: nat)
    requires attempt < MaxRetries
    requires var step := pass(local, responses[attempt]);
      !(step.Raised? && step.failure == NetworkError && attempt < MaxRetries - 1)
    ensures var r := Retry(ctx, pass, base, responses, attempt, local, stored, calls, writes);
      && r.writes == writes + (if LastWrote(pass, responses, r) then 1 else 0)
      && r.writes - writes <= r.calls - calls
  {
    var r := Retry(ctx, pass, base, responses, attempt, local, stored, calls, writes);
    assert r.attempts == attempt + 1 && r.from == local;
  }

  /** An attempt whose update call raised a connection error writes nothing before the retry. */
  lemma {:induction false} RetryWritesRetried(ctx: Context, pass: Pass, base: RetryBase, responses: Responses, attempt: nat, local: set<TagId>, stored: set<TagId>, calls: nat, writes: nat)
    requires attempt < MaxRetries - 1
    requires var step := pass(local, responses[attempt]);
      step.Raised? && step.failure == NetworkError
    ensures var r := Retry(ctx, pass, base, responses, attempt, local, stored, calls, writes);
      && r.writes == writes + (if LastWrote(pass, responses, r) then 1 else 0)
      && r.writes - writes <= r.calls - calls
    decreases MaxRetries - attempt, 0
  {
    var step := pass(local, responses[attempt]);
    RetryUnfolds(ctx, pass, base, responses, attempt, local, stored, calls, writes);
    RetryWrites(ctx, pass, base, responses, attempt + 1, RetryFrom(base, step, stored), stored, Issued(calls, step), writes);
  }

  /** The loop goes on to another attempt only after a pass that raised a network error:
      retrying from the stored tags, every attempt before the last one raised one. */
  lemma RetryOnlyAfterNetworkErrors(ctx: Context, pass: Pass, responses: Responses, attempt: nat, tags: set<TagId>, calls: nat, writes: nat)
    requires attempt < MaxRetries
    ensures var r := Retry(ctx, pass, StoredTags, responses, attempt, tags, tags, calls, writes);
      forall k :: attempt <= k < r.attempts - 1 ==> pass(tags, responses[k]).Raised? && pass(tags, responses[k]).failure == NetworkError
  {
    var r := Retry(ctx, pass, StoredTags, responses, attempt, tags, tags, calls, writes);
    forall k | attempt <= k < r.attempts - 1
      ensures pass(tags, responses[k]).Raised? && pass(tags, responses[k]).failure == NetworkError
    {
      RetriedAfterNetworkError(ctx, pass, responses, attempt, tags, calls, writes, k);
    }
  }

  /** `RetryOnlyAfterNetworkErrors` for one attempt `k`, by induction on the loop. */
  lemma {:induction false} RetriedAfterNetworkError(ctx: Context, pass: Pass, responses: Responses, attempt: nat, tags: set<TagId>, calls: nat, writes: nat, k: nat)
    requires attempt < MaxRetries
    ensures var r := Retry(ctx, pass, StoredTags, responses, attempt, tags, tags, calls, writes);
      attempt <= k < r.attempts - 1 ==> pass(tags, responses[k]).Raised? && pass(tags, responses[k]).failure == NetworkError
    decreases MaxRetries - attempt, 1
  {
    var step := pass(tags, responses[attempt]);
    if step.Raised? && step.failure == NetworkError && attempt < MaxRetries - 1 {
      RetriedAfterNetworkErrorStep(ctx, pass, responses, attempt, tags, calls, writes, k);
    } else {
      assert Retry(ctx, pass, StoredTags, responses, attempt, tags, tags, calls, writes).attempts == attempt + 1;
    }
  }

  /** The retried case of `RetriedAfterNetworkError`. */
  lemma {:induction false} RetriedAfterNetworkErrorStep(ctx: Context, pass: Pass, responses: Responses, attempt: nat, tags: set<TagId>, calls: nat, writes: nat, k: nat)
    requires attempt < MaxRetries - 1
    requires pass(tags, responses[attempt]).Raised? && pass(tags, responses[attempt]).failure == NetworkError
    ensures var r := Retry(ctx, pass, StoredTags, responses, attempt, tags, tags, calls, writes);
      attempt <= k < r.attempts - 1 ==> pass(tags, responses[k]).Raised? && pass(tags, responses[k]).failure == NetworkError
    decreases MaxRetries - attempt, 0
  {
    var step := pass(tags, responses[attempt]);
    RetryUnfolds(ctx, pass, StoredTags, responses, attempt, tags, tags, calls, writes);
    RetriedAfterNetworkError(ctx, pass, responses, attempt + 1, RetryFrom(StoredTags, step, tags), Issued(calls, step), writes, k);
  }

  /** A pass raises only the exception its answer carries. */
  ghost predicate RaisesAsAnswered(pass: Pass) {
    forall local: set<TagId>, response: Response :: pass(local, response).Raised? ==> RaisesWith(response, pass(local, response).failure)
  }

  lemma PassOfRaisesAsAnswered(ctx: Context)
    ensures RaisesAsAnswered(PassOf(ctx))
  {
    forall local: set<TagId>, response: Response
      ensures PassOf(ctx)(local, response).Raised? ==> RaisesWith(response, PassOf(ctx)(local, response).failure)
    {
      PassOfApplies(ctx, local, response);
    }
  }

  /** Whatever set a retry starts from, the attempt `k`, when it is not the last one, was
      answered with a network error: by the lookup, or by an update call. A missing TMDB id,
      another exception, or an update that goes through ends the loop at that attempt. */
  lemma {:induction false} RetryOnNetworkAnswers(ctx: Context, pass: Pass, base: RetryBase, responses: Responses, attempt: nat, local: set<TagId>, stored: set<TagId>, calls: nat, writes: nat, k: nat)
    requires attempt < MaxRetries
    requires RaisesAsAnswered(pass)
    ensures var r := Retry(ctx, pass, base, responses, attempt, local, stored, calls, writes);
      attempt <= k < r.attempts - 1 ==> RaisesWith(responses[k], NetworkError)
    decreases MaxRetries - attempt, 1
  {
    var step := pass(local, responses[attempt]);
    if step.Raised? && step.failure == NetworkError && attempt < MaxRetries - 1 {
      RetryOnNetworkAnswersStep(ctx, pass, base, responses, attempt, local, stored, calls, writes, k);
    } else {
      assert Retry(ctx, pass, base, responses, attempt, local, stored, calls, writes).attempts == attempt + 1;
    }
  }

  /** The retried case of `RetryOnNetworkAnswers`: the answer that raised carried the network error. */
  lemma {:induction false} RetryOnNetworkAnswersStep(ctx: Context, pass: Pass, base: RetryBase, responses: Responses, attempt: nat, local: set<TagId>, stored: set<TagId>, calls: nat, writes: nat, k: nat)
    requires attempt < MaxRetries - 1
    requires RaisesAsAnswered(pass)
    requires pass(local, responses[attempt]).Raised? && pass(local, responses[attempt]).failure == NetworkError
    ensures var r := Retry(ctx, pass, base, responses, attempt, local, stored, calls, writes);
      attempt <= k < r.attempts - 1 ==> RaisesWith(responses[k], NetworkError)
    decreases MaxRetries - attempt, 0
  {
    var step := pass(local, responses[attempt]);
    RetryUnfolds(ctx, pass, base, responses, attempt, local, stored, calls, writes);
    RetryOnNetworkAnswers(ctx, pass, base, responses, attempt + 1, RetryFrom(base, step, stored), stored, Issued(calls, step), writes, k);
  }

  /** `_process_single_item` for an item with tag set `tags`, retrying from `base`: one
      outcome for the item, decided by the last attempt; at most one update call per
      attempt, of which at most one goes through and only in a success, and the catalog's
      tags change only with that write. */
  function ProcessWith(ctx: Context, base: RetryBase, tags: set<TagId>, responses: Responses): (r: ItemRun)
    ensures 1 <= r.attempts <= MaxRetries && r.calls <= r.attempts
    ensures r.outcome.service == ctx.service && r.outcome.title == ctx.title
    ensures r.outcome.success <==> r.outcome.reason.None?
    ensures !r.outcome.success ==> r.outcome.added == {} && r.outcome.removed == {} && r.stored == tags
    ensures r.outcome.reason == Some(NetworkAfterRetries) ==> r.attempts == MaxRetries
    ensures r.stored != tags ==> r.outcome.success && r.calls > 0
    ensures r.writes <= 1 && r.writes <= r.calls
    ensures r.writes == 1 ==> r.outcome.success
    ensures r.stored != tags ==> r.writes == 1
    ensures base == StoredTags ==> r.from == tags
    ensures var last := RunAttempt(ctx, r.from, responses[r.attempts - 1]);
      && (last.Finished? ==> r.outcome == last.outcome && r.stored == last.written.GetOr(tags))
      && (last.Raised? ==> r.outcome == ErrorOutcome(ctx, if last.failure == NetworkError then NetworkAfterRetries else UnexpectedError))
  {
    var r := Retry(ctx, PassOf(ctx), base, responses, 0, tags, tags, 0, 0);
    RetryWrites(ctx, PassOf(ctx), base, responses, 0, tags, tags, 0, 0);
    LastAttemptDecides(ctx, base, tags, responses);
    r
  }

  /** The last attempt of the loop, run on the tags it started from, decides the outcome. */
  lemma LastAttemptDecides(ctx: Context, base: RetryBase, tags: set<TagId>, responses: Responses)
    ensures var r := Retry(ctx, PassOf(ctx), base, responses, 0, tags, tags, 0, 0);
      && (base == StoredTags ==> r.from == tags)
      && var last := RunAttempt(ctx, r.from, responses[r.attempts - 1]);
      && (last.Finished? ==> r.outcome == last.outcome && r.stored == last.written.GetOr(tags))
      && (last.Raised? ==> r.outcome == ErrorOutcome(ctx, if last.failure == NetworkError then NetworkAfterRetries else UnexpectedError))
  {
    var r := Retry(ctx, PassOf(ctx), base, responses, 0, tags, tags, 0, 0);
    PassOfApplies(ctx, r.from, responses[r.attempts - 1]);
  }

  /** For either retry base: the loop retries only after an answer carrying a network error,
      so an attempt answered with a missing TMDB id, another exception or an update that
      goes through is the last one. */
  lemma NoRetryAfterOtherAnswers(ctx: Context, base: RetryBase, tags: set<TagId>, responses: Responses, k: nat)
    requires k < MaxRetries
    ensures var r := ProcessWith(ctx, base, tags, responses);
      && (forall j :: 0 <= j < r.attempts - 1 ==> RaisesWith(responses[j], NetworkError))
      && (!RaisesWith(responses[k], NetworkError) ==> r.attempts <= k + 1)
  {
    var r := Retry(ctx, PassOf(ctx), base, responses, 0, tags, tags, 0, 0);
    assert ProcessWith(ctx, base, tags, responses) == r;
    PassOfRaisesAsAnswered(ctx);
    forall j | 0 <= j < r.attempts - 1 ensures RaisesWith(responses[j], NetworkError) {
      RetryOnNetworkAnswers(ctx, PassOf(ctx), base, responses, 0, tags, tags, 0, 0, j);
    }
    RetryOnNetworkAnswers(ctx, PassOf(ctx), base, responses, 0, tags, tags, 0, 0, k);
  }

  /** `_process_single_item` as written: a retry starts from the overwritten local list. */
  function ProcessItemAsWritten(ctx: Context, tags: set<TagId>, responses: Responses): ItemRun {
    ProcessWith(ctx, MutatedCopy, tags, responses)
  }

  /** `_process_single_item` with retries starting from the tags the catalog stores. Every
      attempt runs the `try` body on the stored tags; all but the last raised a network
      error, the last raised one only if it was the third, and the last decides the run. */
  function ProcessItem(ctx: Context, tags: set<TagId>, responses: Responses): (r: ItemRun)
    ensures 1 <= r.attempts <= MaxRetries
    ensures forall k :: 0 <= k < r.attempts - 1 ==>
      RunAttempt(ctx, tags, responses[k]).Raised? && RunAttempt(ctx, tags, responses[k]).failure == NetworkError
    ensures var last := RunAttempt(ctx, tags, responses[r.attempts - 1]);
      && (last.Raised? && last.failure == NetworkError ==> r.attempts == MaxRetries)
      && (last.Finished? ==> r.outcome == last.outcome && r.stored == last.written.GetOr(tags))
      && (last.Raised? ==> r.stored == tags && r.outcome == ErrorOutcome(ctx, if last.failure == NetworkError then NetworkAfterRetries else UnexpectedError))
  {
    var r := ProcessWith(ctx, StoredTags, tags, responses);
    RetryDecides(ctx, tags, responses);
    r
  }

  /** The retry loop from the stored tags, described attempt by attempt through `RunAttempt`. */
  lemma RetryDecides(ctx: Context, tags: set<TagId>, responses: Responses)
    ensures var r := Retry(ctx, PassOf(ctx), StoredTags, responses, 0, tags, tags, 0, 0);
      && r == ProcessWith(ctx, StoredTags, tags, responses)
      && 1 <= r.attempts <= MaxRetries
      && (forall k :: 0 <= k < r.attempts - 1 ==>
           RunAttempt(ctx, tags, responses[k]).Raised? && RunAttempt(ctx, tags, responses[k]).failure == NetworkError)
      && var last := RunAttempt(ctx, tags, responses[r.attempts - 1]);
      && (last.Raised? && last.failure == NetworkError ==> r.attempts == MaxRetries)
      && (last.Finished? ==> r.outcome == last.outcome && r.stored == last.written.GetOr(tags))
      && (last.Raised? ==> r.stored == tags && r.outcome == ErrorOutcome(ctx, if last.failure == NetworkError then NetworkAfterRetries else UnexpectedError))
  {
    var r := Retry(ctx, PassOf(ctx), StoredTags, responses, 0, tags, tags, 0, 0);
    RetryOnlyAfterNetworkErrors(ctx, PassOf(ctx), responses, 0, tags, 0, 0);
    forall k | 0 <= k < r.attempts
      ensures PassOf(ctx)(tags, responses[k]) == RunAttempt(ctx, tags, responses[k])
    {
      PassOfApplies(ctx, tags, responses[k]);
    }
    assert r.from == tags;
  }

  /** A missing TMDB id is one error, without retry and without any update call. */
  lemma MissingTmdbIdNoRetry(ctx: Context, tags: set<TagId>, responses: Responses)
    requires responses[0] == NoTmdbId
    ensures ProcessItem(ctx, tags, responses) == ItemRun(ErrorOutcome(ctx, TmdbIdNotFound), 1, 0, 0, tags, tags)
  {
  }

  /** An exception other than a network error is recorded at once and ends the loop. */
  lemma OtherErrorNoRetry(ctx: Context, tags: set<TagId>, responses: Responses)
    requires responses[0] == Raises(OtherError)
    ensures ProcessItem(ctx, tags, responses) == ItemRun(ErrorOutcome(ctx, UnexpectedError), 1, 0, 0, tags, tags)
  {
  }

  /** Network errors in all attempts give exactly MaxRetries attempts and one network error. */
  lemma NetworkErrorsExhaustRetries(ctx: Context, tags: set<TagId>, responses: Responses)
    requires forall i :: 0 <= i < MaxRetries ==> responses[i] == Raises(NetworkError)
    ensures ProcessItem(ctx, tags, responses) == ItemRun(ErrorOutcome(ctx, NetworkAfterRetries), MaxRetries, 0, 0, tags, tags)
  {
    assert responses[0] == Raises(NetworkError) && responses[1] == Raises(NetworkError) && responses[2] == Raises(NetworkError);
  }

  /** Two network errors followed by a good answer: the third attempt succeeds and
      stores the new set with one update call, or with none when nothing changes. */
  lemma RecoversAfterNetworkErrors(ctx: Context, tags: set<TagId>, flatrate: seq<Option<string>>, responses: Responses)
    requires responses == [Raises(NetworkError), Raises(NetworkError), Providers(flatrate, UpdateOk)]
    ensures var r := ProcessItem(ctx, tags, responses);
      var next := Desired(ctx.cfg, ctx.tables, tags, flatrate);
      && r.outcome.success && r.attempts == 3 && r.stored == next
      && r.calls == (if next == tags then 0 else 1)
  {
  }

  /** A successful first attempt issues an update call exactly when the new set differs,
      and reports the labels of the set differences. */
  lemma UpdateIffChanged(ctx: Context, tags: set<TagId>, flatrate: seq<Option<string>>, u: UpdateResult, responses: Responses)
    requires responses[0] == Providers(flatrate, u)
    requires u == UpdateOk || Desired(ctx.cfg, ctx.tables, tags, flatrate) == tags
    ensures var r := ProcessItem(ctx, tags, responses);
      var next := Desired(ctx.cfg, ctx.tables, tags, flatrate);
      && r.outcome.success && r.attempts == 1 && r.stored == next
      && (r.calls == 0 <==> next == tags)
      && r.outcome.added == Added(ctx.tables, tags, next)
      && r.outcome.removed == Removed(ctx.tables, tags, next)
  {
  }

  /** A recorded success means the catalog now stores the set computed from the item's
      stored tags and the provider data of the successful attempt, and the reported
      labels describe exactly that change. */
  lemma SuccessStoresDesired(ctx: Context, tags: set<TagId>, responses: Responses)
    ensures var r := ProcessItem(ctx, tags, responses);
      r.outcome.success ==>
        && responses[r.attempts - 1].Providers?
        && r.stored == Desired(ctx.cfg, ctx.tables, tags, responses[r.attempts - 1].flatrate)
        && r.outcome.added == Added(ctx.tables, tags, r.stored)
        && r.outcome.removed == Removed(ctx.tables, tags, r.stored)
  {
    var r := ProcessItem(ctx, tags, responses);
    ProcessItemUnfolds(ctx, tags, responses);
    var response := responses[r.attempts - 1];
    RetryFinishes(ctx, PassOf(ctx), responses, tags);
    PassOfApplies(ctx, tags, response);
    AttemptSuccessStores(ctx, tags, response);
  }

  lemma ProcessItemUnfolds(ctx: Context, tags: set<TagId>, responses: Responses)
    ensures ProcessItem(ctx, tags, responses) == Retry(ctx, PassOf(ctx), StoredTags, responses, 0, tags, tags, 0, 0)
  {
  }

  lemma PassOfApplies(ctx: Context, local: set<TagId>, response: Response)
    ensures PassOf(ctx)(local, response) == RunAttempt(ctx, local, response)
  {
  }

  /** A successful attempt had the providers, and what the catalog then stores is the new set:
      written by the update call, or already equal to the local set. */
  lemma AttemptSuccessStores(ctx: Context, local: set<TagId>, response: Response)
    ensures var s := RunAttempt(ctx, local, response);
      s.Finished? && s.outcome.success ==>
        && response.Providers?
        && s.written.GetOr(local) == Desired(ctx.cfg, ctx.tables, local, response.flatrate)
        && s.outcome.added == Added(ctx.tables, local, s.written.GetOr(local))
        && s.outcome.removed == Removed(ctx.tables, local, s.written.GetOr(local))
  {
    AttemptUpdatesIffChanged(ctx, local, response);
  }

  /** Retrying from the stored tags, every attempt starts from them, and a successful run
      ends with its last attempt's outcome and with what that attempt wrote, if anything. */
  lemma RetryFinishes(ctx: Context, pass: Pass, responses: Responses, tags: set<TagId>)
    ensures var r := Retry(ctx, pass, StoredTags, responses, 0, tags, tags, 0, 0);
      var last := pass(tags, responses[r.attempts - 1]);
      r.outcome.success ==> last.Finished? && r.outcome == last.outcome && r.stored == last.written.GetOr(tags)
  {
    var r := Retry(ctx, pass, StoredTags, responses, 0, tags, tags, 0, 0);
    assert r.from == tags;
  }

  /** As written, the retry after a failed update starts from the overwritten list, finds
      nothing to change, and records a success with no changes although the catalog was
      never written: here the new set is {1} while the catalog still stores {}. */
  lemma AsWrittenRetryLosesUpdate()
    ensures var ctx := Context(Config("p", ["a"]), Tables(map[1 := "pa"], map["pa" := 1]), Radarr, "t");
      var flatrate := [Some("a")];
      var responses: Responses := [Providers(flatrate, UpdateRaises(NetworkError)), Providers(flatrate, UpdateOk), NoTmdbId];
      var r := ProcessItemAsWritten(ctx, {}, responses);
      && Desired(ctx.cfg, ctx.tables, {}, flatrate) == {1}
      && r.outcome.success && r.outcome.added == {} && r.outcome.removed == {}
      && r.attempts == 2 && r.calls == 1 && r.writes == 0 && r.from == {1} && r.stored == {}
  {
    var ctx := Context(Config("p", ["a"]), Tables(map[1 := "pa"], map["pa" := 1]), Radarr, "t");
    var flatrate := [Some("a")];
    assert Sanitize("a") == "a";
    assert Label("p", "a") == "pa";
    assert ProviderTag(ctx.cfg, ctx.tables, flatrate[0]) == Some(1);
    assert IsManaged(ctx.cfg, ctx.tables, 1);
    assert Desired(ctx.cfg, ctx.tables, {}, flatrate) == {1};
    assert Desired(ctx.cfg, ctx.tables, {1}, flatrate) == {1};
  }

  /** More than one update call per item does happen: after a call that raised a network
      error, the retry issues it again, and only that second call goes through. */
  lemma RetryReissuesUpdate(ctx: Context, tags: set<TagId>, flatrate: seq<Option<string>>, last: Response)
    requires Desired(ctx.cfg, ctx.tables, tags, flatrate) != tags
    ensures var responses: Responses := [Providers(flatrate, UpdateRaises(NetworkError)), Providers(flatrate, UpdateOk), last];
      var r := ProcessItem(ctx, tags, responses);
      && r.outcome.success && r.attempts == 2 && r.calls == 2 && r.writes == 1
      && r.stored == Desired(ctx.cfg, ctx.tables, tags, flatrate)
  {
  }

  /** Running the item again against the stored result with the same provider data makes
      no update call and records a success with no changes. */
  lemma SecondRunNoUpdate(ctx: Context, tags: set<TagId>, flatrate: seq<Option<string>>, u: UpdateResult, responses: Responses)
    requires responses[0] == Providers(flatrate, u)
    ensures var r := ProcessItem(ctx, Desired(ctx.cfg, ctx.tables, tags, flatrate), responses);
      && r.outcome.success && r.attempts == 1 && r.calls == 0
      && r.outcome.added == {} && r.outcome.removed == {}
  {
    DesiredIdempotent(ctx.cfg, ctx.tables, tags, flatrate);
  }
}

=== FILE: wrappers.dfy ===
/** The optional value used wherever the scripts read a field or a lookup
    that may be absent (`dict.get`, an element's `text`). */
module Wrappers {

  datatype Option<+T> = None | Some(value: T) {

    /** The value if present, `default` otherwise (Python's `d.get(k, default)`). */
    function GetOr(default: T): T {
      match this
      case Some(v) => v
      case None => default
    }
  }
}
